=== FILE: README.md ===
# Client-side authentication of the "town" login demo, in Dafny

This project models the client half of a small React login demo:

- **The auth client** (`src/api/auth.ts`) keeps the session in the browser's `localStorage`
  under `auth_token`, `refresh_token` and `user_info`. It offers:
  - login with a password;
  - registration;
  - the GitHub OAuth exchange;
  - logout;
  - `getCurrentUser`;
  - the pass-through calls for password reset, email verification and password change.
- **Three screens** drive the client: login, registration and change-password.
- **The application shell** picks a screen and restores a stored session when it mounts.

Every call to the server is an input to the model, an `Exchange`. It is either a transport
failure or a reply made of the HTTP-ok flag and the parsed `{success, message, data?,
error_code?}` body. Each operation returns the request it would post, with verb, path and
JSON body.

Modules, one per file:

- `Js` (`js.dfy`): the JavaScript string semantics the code relies on:
  - the truthiness of strings and `s || fallback`;
  - `trim` and the `\s` class;
  - `length` in UTF-16 code units.
- `Checks` (`checks.dfy`): an ordered list of checks where the first failing one decides the
  message. Both validators are instances of it.
- `Auth` (`auth.dfy`): the store and the auth client.
  - `LocalStorage` is a class whose `items` map the operations write key by key.
  - Login, registration and GitHub share one imperative persist step, `ExchangeSession`. It is
    specified by the functions `AfterSessionReply` and `SessionResponse`, and their key rules
    are proved as lemmas.
- `LoginForm` (`login_form.dfy`): the login screen as a class.
  - Its fields are the mode, the inputs, `loading`, `error` and the `codeSent` latch.
  - It has the four handlers, plus the button enable rules as predicates.
- `RegisterForm` (`register_form.dfy`), containing:
  - the registration form data;
  - the email pattern, proved equal to the language of the regular expression;
  - the mobile-number pattern;
  - the nine ordered checks, with an imperative `ValidateForm` proved equal to them;
  - the 60-tick resend cooldown as a pure `AfterTicks` and a class-level `Tick`;
  - the submit handler.
- `ChangePasswordForm` (`change_password_form.dfy`): the six ordered checks, the visibility
  toggles and the submit handler, which sends the stored profile's id.
- `App` (`app.dfy`), containing:
  - the view rule;
  - the mount-time gate, proved to agree with `getCurrentUser`;
  - the shell's callbacks;
  - the Dashboard's logout button.

Handlers run to completion as one step, since the request and its reply are one event. The
handlers themselves never check `loading`: only disabled buttons prevent a second submit.
So the enable rules are predicates (`CanSubmit`, `CanSendCode`, `CanSendEmailCode`), and the
handlers' contracts say what those predicates are afterwards.

Where the code and a natural reading of the design differ, the model follows the code:

- `logout` removes only the two tokens and leaves `user_info` in place.
- The shell restores a session only when both a non-empty token and a profile are stored.
- An empty stored token counts as logged out.
- A successful login, registration or GitHub reply without an `access_token` is still
  returned as a success, although nothing is stored.
- The login screen's own fallback message `登录失败，请检查用户名和密码` can never appear.
  The auth client replaces an empty server message by `登录失败`, so the message the screen
  receives on failure is never empty (`Auth.SessionResponseRules`). The registration
  screen's fallback `注册失败` coincides with the client's default.

## Model

| member | source | states |
|---|---|---|
| Js.Trim | src/components/RegisterForm.tsx:76 | `trim()` never lengthens a string; the result is empty exactly when every character is white space, and otherwise starts and ends with a non-white-space character |
| Js.Utf16Length | src/components/RegisterForm.tsx:77 | `length` counts between one and two units per character, and exactly one per character when all are in the basic plane |
| Js.Utf16LengthConcat | src/components/RegisterForm.tsx:77 | `length` adds up over concatenation; a single character counts its own units, which are two exactly for a code point outside the basic plane (a surrogate pair) |
| Js.Utf16LengthSnoc | src/components/ChangePasswordForm.tsx:41 | appending a character grows `length` by exactly that character's units |
| Js.Utf16LengthCountsAstral | src/components/ChangePasswordForm.tsx:41 | a string with m code points outside the basic plane is m units longer than its character count |
| Checks.FirstFailing | src/components/RegisterForm.tsx:75-90 | the position of the first failing check: every earlier check holds and the one there fails, or every check holds |
| Checks.Verdict | src/components/RegisterForm.tsx:75-90 | a validator passes exactly when every check holds; when it fails, its message is the message of a failing check with only passing checks before it |
| Checks.VerdictOfNine | src/components/RegisterForm.tsx:75-90 | nine ordered checks behave as the chain of early returns the registration validator is written as |
| Checks.VerdictOfSix | src/components/ChangePasswordForm.tsx:32-58 | six ordered checks behave as the chain of early returns the change-password validator is written as |
| Auth.LocalStorage.constructor | src/api/auth.ts:4-17 | the store the reads find when the page loads: it starts with the given entries |
| Auth.LocalStorage.SetItem | src/api/auth.ts:80 | `setItem` writes one key and leaves every other key alone |
| Auth.LocalStorage.RemoveItem | src/api/auth.ts:205 | `removeItem` removes one key and leaves every other key alone |
| Auth.GetCurrentUser | src/api/auth.ts:227-271 | four outcomes: no or empty token gives `未登录`; a token without a profile gives `用户信息不存在`; token and profile give success with the stored profile and `获取用户信息成功`; a token with text that `JSON.parse` rejects under `user_info` gives the catch's network message. Every failure carries no data and no error code, and the store is only read |
| Auth.GetAuthToken | src/api/auth.ts:9-11 | `getItem('auth_token')`: the stored token when the key is present, nothing otherwise |
| Auth.GetStoredUserInfo | src/api/auth.ts:14-17 | the stored profile exactly when a serialised profile is under `user_info`; nothing when the key is absent or empty |
| Auth.StoreReadsBackWrites | src/api/auth.ts:4-17 | the three reads return what was last written: a written token is read back and logs in exactly when not empty, a written profile is read back, a removed token or profile reads as nothing |
| Auth.LoggedInDependsOnTokenOnly | src/api/auth.ts:4-6 | being logged in is having a non-empty `auth_token`; writing or removing any other key never changes it, and an empty token counts as none |
| Auth.SessionToSave | src/api/auth.ts:77-79 | a session is persisted only for an HTTP-ok successful reply, only one with a non-empty access token, and every such reply is persisted with exactly its data; whatever is persisted is the reply's own data; a transport failure, an error status, `success: false`, a reply without data or a successful reply whose data has no non-empty access token persists nothing |
| Auth.SessionWriteRules | src/api/auth.ts:77-88 | on a persisted session, `auth_token` holds the reply's token; `refresh_token` and `user_info` are written only when the reply carries them and otherwise keep their old values; every other key is untouched; any other reply, including a successful one without an access token, leaves the store unchanged |
| Auth.SessionResponseRules | src/api/auth.ts:88-102 | a transport failure gives the fixed network message; an HTTP-ok successful reply is returned unchanged, even without a token; any other reply becomes a failure with the server's message or the default, never empty, and the server's error code |
| Auth.SavedSessionReadsBack | src/api/auth.ts:79-86 | right after a persisted session the store is logged in with exactly that token, and the stored profile and `getCurrentUser` give back the reply's user |
| Auth.ExchangeSession | src/api/auth.ts:75-102 | the imperative persist-then-answer step leaves exactly the store of `AfterSessionReply` and returns `SessionResponse` |
| Auth.LoginWithPassword | src/api/auth.ts:62-103 | posts only identifier and password to `/auth/login` (the remember and auto-login flags are not sent), persists by the session rules and answers with the default `登录失败` |
| Auth.RegisterRequestBody | src/api/auth.ts:276-293 | the body built by conditional assignment always carries username, password and nickname; it has `email` exactly when the email is non-empty, the code exactly when email and code are both non-empty, and `phone` exactly when the phone is non-empty |
| Auth.RegisterBodyIsDetermined | src/api/auth.ts:276-293 | those body rules leave no freedom: two bodies that follow them for the same parameters are equal |
| Auth.Register | src/api/auth.ts:274-331 | posts that body to `/auth/register` and persists with the same key rules as login, with the default `注册失败` |
| Auth.GithubBody | src/api/auth.ts:374 | the serialised GitHub payload always has id, username and nickname, and has email and avatar exactly when they are defined |
| Auth.GithubOAuth | src/api/auth.ts:361-405 | posts that payload to `/auth/github` and persists with the same key rules as login, with the default `GitHub登录失败` |
| Auth.ReportedUsername | src/components/LoginForm.tsx:37 | the username read from `response.data?.user`, or the fallback when it is empty or there is no data: no name exactly when data is present without a user (the read throws); no data gives the fallback; a non-empty server name is reported as is and an empty one gives the fallback; the reported name is never empty when the fallback is not |
| Auth.SendPasswordResetCode | src/api/auth.ts:106-125 | posts the identifier to `/auth/forgot-password`; any reply body is handed back as it came, whatever the HTTP status; a transport failure gives the network message |
| Auth.ResetPassword | src/api/auth.ts:128-151 | posts identifier, code and new password to `/auth/reset-password`; same pass-through rule |
| Auth.SendEmailVerificationCode | src/api/auth.ts:154-173 | posts the email to `/auth/send-email-verification`; same pass-through rule |
| Auth.VerifyEmailCode | src/api/auth.ts:176-198 | posts email and code to `/auth/verify-email`; same pass-through rule |
| Auth.ChangePassword | src/api/auth.ts:334-358 | a PUT to `/auth/change-password` with user id, old and new password; same pass-through rule |
| Auth.AfterLogout | src/api/auth.ts:201-206 | logout drops exactly `auth_token` and `refresh_token` and keeps every other key, `user_info` included |
| Auth.Logout | src/api/auth.ts:201-206 | the two removals leave exactly the store of `AfterLogout` |
| Auth.LogoutEndsSession | src/api/auth.ts:201-206 | after logout nobody is logged in, there is no token, `getCurrentUser` answers `未登录`, and the stored profile is still there |
| LoginForm.LoginForm.constructor | src/components/LoginForm.tsx:12-22 | the screen starts in password mode with empty inputs, not loading, no error and the latch released |
| LoginForm.LoginForm.CanSubmit | src/components/LoginForm.tsx:189 | both submit buttons (reset at line 189, login at line 323) are disabled exactly while loading; every handler that sends a request ends with loading false, so they are enabled again afterwards |
| LoginForm.LoginForm.CanSendCode | src/components/LoginForm.tsx:171 | the reset-code button is enabled only when the submit buttons are, and never while the latch is set |
| LoginForm.LoginForm.EnterIdentifier | src/components/LoginForm.tsx:241 | the identifier input sets the identifier only |
| LoginForm.LoginForm.EnterPassword | src/components/LoginForm.tsx:257 | the password input sets the password only |
| LoginForm.LoginForm.EnterVerificationCode | src/components/LoginForm.tsx:166 | the code input sets the code only |
| LoginForm.LoginForm.EnterNewPassword | src/components/LoginForm.tsx:184 | the new-password input sets the new password only |
| LoginForm.LoginForm.SwitchMode | src/components/LoginForm.tsx:196 | the tabs, the forgot link and cancel set the mode and nothing else; cancel does not release the latch |
| LoginForm.LoginForm.HandlePasswordLogin | src/components/LoginForm.tsx:25-46 | posts the login request and persists by the session rules. On success it reports the server's username, or the identifier when that is empty or there is no data; with a user in the reply, the error stays empty; data without a user throws, and the network message is shown instead. On failure it shows the client's message, never empty. Loading ends false either way |
| LoginForm.LoginForm.HandleCodeLogin | src/components/LoginForm.tsx:48-52 | code login always shows the fixed "not available" message, ends not loading and sends nothing |
| LoginForm.LoginForm.HandleSendLoginCode | src/components/LoginForm.tsx:54-74 | an empty identifier shows an error and changes nothing else. Otherwise the reset code is requested: success sets the latch, which disables the button; failure shows the server's message or `发送失败` and leaves the latch; loading ends false |
| LoginForm.LoginForm.HandleResetPassword | src/components/LoginForm.tsx:76-96 | on success: back to password mode, code and new password cleared, latch released, identifier kept. On failure: mode, inputs and latch unchanged and the message or `重置失败` shown. Loading ends false |
| LoginForm.SubmitHandlerFor | src/components/LoginForm.tsx:141-230 | the reset view's form resets the password, and the other form logs in with the password exactly in password mode |
| RegisterForm.FormData.With | src/components/RegisterForm.tsx:41 | a spread update sets the named field and keeps every other |
| RegisterForm.CleanRun | src/components/RegisterForm.tsx:50 | the longest prefix of `[^\s@]` characters |
| RegisterForm.EmailMatches | src/components/RegisterForm.tsx:50 | an accepted email is at least five characters long, contains `@`, and starts and ends with a `[^\s@]` character; `EmailMatchesShape` characterises it fully |
| RegisterForm.CleanRunAt | src/components/RegisterForm.tsx:50 | the clean run ends exactly at the first character that is white space or `@` |
| RegisterForm.CleanSlice | src/components/RegisterForm.tsx:50 | a slice of a run of `[^\s@]` characters is such a run |
| RegisterForm.CleanConcat | src/components/RegisterForm.tsx:50 | two runs of `[^\s@]` characters joined make such a run |
| RegisterForm.EmailMatchesHasShape | src/components/RegisterForm.tsx:50 | everything the email test accepts is a clean run, `@`, a clean run, a dot, and a clean run, each part non-empty |
| RegisterForm.SplitMatchesEmail | src/components/RegisterForm.tsx:50 | a string split in that shape at given positions passes the email test |
| RegisterForm.ShapeMatchesEmail | src/components/RegisterForm.tsx:50 | everything of that shape passes the email test |
| RegisterForm.EmailMatchesShape | src/components/RegisterForm.tsx:50 | the email test accepts exactly the language of `/^[^\s@]+@[^\s@]+\.[^\s@]+$/` |
| RegisterForm.PhoneMatches | src/components/RegisterForm.tsx:85 | an accepted mobile number consists of ASCII digits only |
| RegisterForm.PhoneSamples | src/components/RegisterForm.tsx:85 | `13812345678` passes; a second digit below 3, ten digits, a `+86` prefix and a full-width final digit all fail |
| RegisterForm.PhoneMatchIsElevenUnits | src/components/RegisterForm.tsx:85 | a number the mobile pattern accepts is eleven characters long and not blank |
| RegisterForm.ValidationUnrolled | src/components/RegisterForm.tsx:75-90 | the rule list's verdict is the first failing of the nine checks, in the code's order |
| RegisterForm.ValidationPassesIff | src/components/RegisterForm.tsx:75-90 | the form passes exactly when all nine conditions hold |
| RegisterForm.ValidatedFormIsWellFormed | src/components/RegisterForm.tsx:75-90 | a passing form has a username of at least 3 and a password of at least 6 characters, an email of the pattern's shape, a non-empty code, and a phone that is blank or an 11-character mobile number |
| RegisterForm.PasswordLengthBoundary | src/components/RegisterForm.tsx:79 | with a valid username, `abc` is refused with the 6-character message and `abcdef` passes both password checks |
| RegisterForm.TickOnce | src/components/RegisterForm.tsx:28-38 | a tick never raises the countdown, lowers a running one by exactly one, does nothing at zero, and keeps "latched exactly while counting" true |
| RegisterForm.CountingDown | src/components/RegisterForm.tsx:28-38 | from c seconds with the latch set, k ticks leave c - k seconds, with the latch held until zero |
| RegisterForm.IdleTicks | src/components/RegisterForm.tsx:34-36 | at zero with the latch released, ticks change nothing |
| RegisterForm.ResendReenabledAfterSixtyTicks | src/components/RegisterForm.tsx:28-38 | after a send the latch holds for 59 ticks, the 60th releases it at zero, and it stays released |
| RegisterForm.RegisterDataOf | src/components/RegisterForm.tsx:99-108 | the parameters carry the form's username, password, nickname, email and code, and a phone exactly when the phone is not blank |
| RegisterForm.RegisterBodyOfForm | src/components/RegisterForm.tsx:99-108 | the body the screen sends carries exactly username, password, nickname, email and code, plus the phone when it is not blank |
| RegisterForm.RegisterForm.constructor | src/components/RegisterForm.tsx:12-24 | an empty form, not loading, no error, latch released, countdown zero |
| RegisterForm.RegisterForm.CanSendEmailCode | src/components/RegisterForm.tsx:248 | the send-code button is enabled only with an email typed, and never while the countdown runs |
| RegisterForm.RegisterForm.Tick | src/components/RegisterForm.tsx:28-38 | one interval second is one `TickOnce` while mounted and nothing after teardown; the latch is set exactly while the countdown runs, which never exceeds 60 |
| RegisterForm.RegisterForm.Teardown | src/components/RegisterForm.tsx:37 | unmounting clears the interval |
| RegisterForm.RegisterForm.HandleInputChange | src/components/RegisterForm.tsx:40-43 | one field changes, the others stay, and the error is cleared |
| RegisterForm.RegisterForm.HandleSendEmailCode | src/components/RegisterForm.tsx:45-73 | an empty or malformed email shows its error and sends nothing. Otherwise the code is requested: success starts the 60-second cooldown and disables the button; failure shows the message or `发送验证码失败` and leaves the timer alone |
| RegisterForm.RegisterForm.ValidateForm | src/components/RegisterForm.tsx:75-90 | the imperative chain passes exactly when the rule list does, and otherwise writes the first failing check's message |
| RegisterForm.RegisterForm.HandleRegister | src/components/RegisterForm.tsx:92-120 | a failing form sends nothing and changes neither loading nor the store. A passing form posts a body with exactly the five fields, plus phone when not blank, persists by the session rules, and reports the username or shows the client's message |
| ChangePasswordForm.FormData.With | src/components/ChangePasswordForm.tsx:23 | a spread update sets the named field and keeps the other two |
| ChangePasswordForm.Visibility.Toggled | src/components/ChangePasswordForm.tsx:29 | flips the named flag and keeps the other two |
| ChangePasswordForm.ValidationUnrolled | src/components/ChangePasswordForm.tsx:32-58 | the rule list's verdict is the first failing of the six checks, in the code's order |
| ChangePasswordForm.ValidationPassesIff | src/components/ChangePasswordForm.tsx:32-58 | the form passes exactly when the current password is given, the new one has at least six characters, the confirmation repeats it, and it differs from the current one |
| ChangePasswordForm.ShortNewPasswordRejected | src/components/ChangePasswordForm.tsx:41-44 | a five-character new password is refused with the length message once a current password is given |
| ChangePasswordForm.SamePasswordRejected | src/components/ChangePasswordForm.tsx:53-56 | re-entering the current password, confirmed and long enough, is refused by the last check |
| ChangePasswordForm.ChangePasswordForm.constructor | src/components/ChangePasswordForm.tsx:6-18 | empty fields, all hidden, not loading, no notices |
| ChangePasswordForm.ChangePasswordForm.HandleInputChange | src/components/ChangePasswordForm.tsx:22-26 | one field changes, and both the error and the success notice are cleared |
| ChangePasswordForm.ChangePasswordForm.TogglePasswordVisibility | src/components/ChangePasswordForm.tsx:28-30 | only the named visibility flag flips |
| ChangePasswordForm.ChangePasswordForm.ValidateForm | src/components/ChangePasswordForm.tsx:32-58 | the imperative chain passes exactly when the rule list does, and otherwise writes the first failing check's message |
| ChangePasswordForm.ChangePasswordForm.HandleSubmit | src/components/ChangePasswordForm.tsx:60-98 | a failing form, or a missing profile or id, shows its message and sends nothing. Otherwise it sends the change for the stored id: success shows `密码修改成功！` and clears the fields; failure shows the message or `密码修改失败` and keeps them; loading ends false. Any request sent carries a new password of at least six characters, different from the old one |
| ChangePasswordForm.IdOf | src/components/ChangePasswordForm.tsx:69 | `userInfo?.id` is truthy exactly when a profile is stored and its id is not empty, and is then that id |
| App.SelectView | src/App.tsx:47-68 | the dashboard exactly when logged in with a user; otherwise registration exactly when `showRegister`, else login |
| App.SessionGate | src/App.tsx:13-21 | a user is restored only when logged in, and whenever a token and a readable profile are both stored it is that profile's username |
| App.GateAgreesWithCurrentUser | src/App.tsx:13-21 | the mount gate lets a user through exactly when `getCurrentUser` succeeds, with that profile's username; a token without a stored profile restores nobody |
| App.GateClosedAfterLogout | src/App.tsx:14 | after logout no session is restored, although the profile remains stored |
| App.GateOpensAfterSavedSession | src/App.tsx:14-18 | after a persisted session a reload restores its user, or the profile stored before when the reply had none |
| App.App.constructor | src/App.tsx:8-10 | the shell starts logged out on the login screen |
| App.App.RestoreSession | src/App.tsx:13-21 | the mount effect logs in with the stored username exactly when the gate lets a user through, and otherwise leaves the state alone; from the start state the dashboard shows exactly then |
| App.App.HandleLoginSuccess | src/App.tsx:23-26 | sets the user and logs in, so the dashboard shows |
| App.App.HandleRegisterSuccess | src/App.tsx:28-32 | as login, and the registration screen is dismissed |
| App.App.HandleLogout | src/App.tsx:34-37 | clears the user and logs out; `showRegister` is untouched and picks the screen |
| App.App.HandleSwitchToRegister | src/App.tsx:39-41 | only `showRegister` changes, to true |
| App.App.HandleSwitchToLogin | src/App.tsx:43-45 | only `showRegister` changes, to false |
| App.DashboardLogout | src/components/Dashboard.tsx:122-125 | the Dashboard's logout clears the tokens and then calls the shell back: the dashboard is left, and a reload would not restore the session |

## Left out

- Networking:
  - `fetch`, HTTP and `response.json()` are not modelled; each call's outcome is an input.
  - A reply whose body is not JSON counts as a transport failure. Every operation catches it
    the same way and answers with the network message.
- The bearer `Authorization` header of `changePassword` is not modelled. It reads
  `auth_token` but does not change the request's body or the store.
- JSON serialisation of the profile is not modelled: the stored profile is an opaque value.
  - Text under `user_info` stands for text that `JSON.parse` rejects.
  - `getStoredUserInfo` reads it as no profile. Real `JSON.parse` would throw, and that
    function does not catch.
  - `getCurrentUser` answers such text with its catch's network message.
- JSON text of another shape under `user_info` is not represented. Two examples:
  - `{}` parses to an object. `getStoredUserInfo` then returns it, so the shell logs in
    with an undefined username and shows the dashboard. `getCurrentUser` succeeds with it.
  - `null` makes `getStoredUserInfo` return null and `getCurrentUser` succeed with null data.
- Rendering, markup, icons and `alert()` pop-ups are not modelled. The alerts only repeat
  messages that the model already records.
- The Dashboard's zone display and its change-password toggle are not modelled.
- Real timers and asynchronous interleaving are not modelled. A handler's request and reply
  form one step, and the interval is a discrete `Tick`.
- `rememberPassword`, `autoLogin` and the password show/hide toggles of the login and
  registration screens are not modelled. The flags are never sent, and the toggles are
  purely visual.
- The commented-out server logout and `/auth/me` code is not modelled.
- Each screen's outer `catch` is absent. The auth client never throws. Within the model,
  only the username read after a success can reach that catch, and the model covers that
  case.
- A reply body that is JSON but not an object (`null`, say) is not modelled.
  - The pass-through calls hand such a body back as it came. The screen's
    `response.success` then throws into its outer catch.
  - Three screens' catches show `网络错误，请稍后重试`, as for a transport failure. The
    login screen's reset handler shows `网络错误` instead (src/components/LoginForm.tsx:91-92).
  - In the login-shaped calls, such a body throws inside the auth client. The client's own
    catch then gives the network message.
- `verifyEmailCode` is modelled as an operation only; no screen calls it.
- Unpaired surrogates are not modelled. A JavaScript string may hold a lone surrogate code
  unit, but a Dafny `char` is a Unicode scalar value, so `Utf16Length`, `Trim` and the two
  patterns cover well-formed text only.

=== FILE: app.dfy ===
/** The application shell of src/App.tsx: which screen shows, how a stored session is picked
    up when the shell mounts, and how the screens' success and logout callbacks move between
    views. The Dashboard's logout button (src/components/Dashboard.tsx) is modelled here as
    well, since it only clears the store and calls the shell back. */
module App {
  import opened Js
  import opened Auth

  /** The shell's idea of the user: `{ username }`. */
  datatype User = User(username: string)

  datatype View = DashboardView | RegisterView | LoginView

  /** The render rule: the dashboard when logged in with a user (any object is truthy, even
      one with an empty name), otherwise the registration or the login screen. */
  function SelectView(loggedIn: bool, user: Option<User>, showRegister: bool): (v: View)
    ensures v == DashboardView <==> loggedIn && user.Some?
    ensures v == RegisterView <==> !(loggedIn && user.Some?) && showRegister
    ensures v == LoginView <==> !(loggedIn && user.Some?) && !showRegister
  {
    if loggedIn && user.Some? then DashboardView
    else if showRegister then RegisterView
    else LoginView
  }

  /** The user the mount effect restores from a store: present only when an access token
      is present and non-empty and a profile can be read. */
  function SessionGate(items: map<string, Item>): (u: Option<User>)
    ensures u.Some? ==> IsLoggedIn(items)
    ensures IsLoggedIn(items) && GetStoredUserInfo(items).Some? ==>
      u == Some(User(GetStoredUserInfo(items).value.username))
  {
    if IsLoggedIn(items) then
      var info := GetStoredUserInfo(items);
      if info.Some? then Some(User(info.value.username)) else None
    else None
  }

  /** The gate agrees with the auth client's `getCurrentUser`: it restores a user exactly
      when that call succeeds, with the name of the profile it returns; a token alone, with
      no profile stored, restores nobody. */
  lemma GateAgreesWithCurrentUser(items: map<string, Item>)
    ensures SessionGate(items).Some? <==> GetCurrentUser(items).success
    ensures SessionGate(items).Some? ==>
      SessionGate(items).value.username == GetCurrentUser(items).data.value.username
    ensures IsLoggedIn(items) && UserInfoKey !in items ==> SessionGate(items).None?
  {
  }

  /** After logout no session is restored, although the profile is still in the store. */
  lemma GateClosedAfterLogout(items: map<string, Item>)
    ensures SessionGate(AfterLogout(items)).None?
    ensures GetStoredUserInfo(AfterLogout(items)) == GetStoredUserInfo(items)
  {
    LogoutEndsSession(items);
  }

  /** After a login-shaped exchange that stored a session with a user, a reload restores
      that user; one that stored a token without a user restores whatever profile was
      already stored. */
  lemma GateOpensAfterSavedSession(items: map<string, Item>, reply: Exchange)
    requires SessionToSave(reply).Some?
    ensures SessionToSave(reply).value.user.Some? ==>
      SessionGate(AfterSessionReply(items, reply))
        == Some(User(SessionToSave(reply).value.user.value.username))
    ensures SessionToSave(reply).value.user.None? ==>
      SessionGate(AfterSessionReply(items, reply))
        == (if GetStoredUserInfo(items).Some? then Some(User(GetStoredUserInfo(items).value.username))
            else None)
  {
    SavedSessionReadsBack(items, reply);
    SessionWriteRules(items, reply);
  }

  class App {
    var loggedIn: bool
    var user: Option<User>
    var showRegister: bool

    constructor ()
      ensures !loggedIn && user.None? && !showRegister
      ensures View() == LoginView
    {
      loggedIn, user, showRegister := false, None, false;
    }

    function View(): View
      reads this
    {
      SelectView(loggedIn, user, showRegister)
    }

    /** The mount effect: with a token and a readable profile the shell takes the profile's
        username and logs in; otherwise it leaves its state alone. From the initial state
        the dashboard shows exactly when the gate lets a user through. */
    method RestoreSession(storage: LocalStorage)
      modifies this`loggedIn, this`user
      ensures SessionGate(storage.items).Some? ==> loggedIn && user == SessionGate(storage.items)
      ensures SessionGate(storage.items).None? ==> loggedIn == old(loggedIn) && user == old(user)
      ensures old(!loggedIn && user.None?) ==>
        (View() == DashboardView <==> SessionGate(storage.items).Some?)
    {
      if IsLoggedIn(storage.items) {
        var userInfo := GetStoredUserInfo(storage.items);
        if userInfo.Some? {
          user := Some(User(userInfo.value.username));
          loggedIn := true;
        }
      }
    }

    /** `handleLoginSuccess`: the dashboard shows for the reported name. */
    method HandleLoginSuccess(username: string)
      modifies this`loggedIn, this`user
      ensures loggedIn && user == Some(User(username))
      ensures View() == DashboardView
    {
      user := Some(User(username));
      loggedIn := true;
    }

    /** `handleRegisterSuccess`: as login, and the registration screen is dismissed, so a
        later logout lands on the login screen. */
    method HandleRegisterSuccess(username: string)
      modifies this`loggedIn, this`user, this`showRegister
      ensures loggedIn && user == Some(User(username)) && !showRegister
      ensures View() == DashboardView
    {
      user := Some(User(username));
      loggedIn := true;
      showRegister := false;
    }

    /** `handleLogout`: back to the screen `showRegister` selects; that flag is untouched. */
    method HandleLogout()
      modifies this`loggedIn, this`user
      ensures !loggedIn && user.None?
      ensures View() == (if showRegister then RegisterView else LoginView)
    {
      user := None;
      loggedIn := false;
    }

    method HandleSwitchToRegister()
      modifies this`showRegister
      ensures showRegister
      ensures View() == (if loggedIn && user.Some? then DashboardView else RegisterView)
    {
      showRegister := true;
    }

    method HandleSwitchToLogin()
      modifies this`showRegister
      ensures !showRegister
      ensures View() == (if loggedIn && user.Some? then DashboardView else LoginView)
    {
      showRegister := false;
    }
  }

  /** The Dashboard's logout button: clear the tokens, then call the shell back. The shell
      leaves the dashboard, and a reload would not restore the session. */
  method DashboardLogout(app: App, storage: LocalStorage)
    modifies storage, app`loggedIn, app`user
    ensures storage.items == AfterLogout(old(storage.items))
    ensures !app.loggedIn && app.user.None? && app.View() != DashboardView
    ensures SessionGate(storage.items).None?
  {
    Logout(storage);
    app.HandleLogout();
    GateClosedAfterLogout(old(storage.items));
  }
}

=== FILE: auth.dfy ===
/** The auth client of src/api/auth.ts and the browser store it persists the session in.
    Every network exchange is an input: either the transport failed (fetch rejected or the
    body was not JSON) or a reply arrived with its HTTP status and its JSON body. Each
    operation returns the request it posts, so that callers can tell "no request". */
module Auth {
  import opened Js

  // ---------------------------------------------------------------- constants

  const AuthTokenKey: string := "auth_token"
  const RefreshTokenKey: string := "refresh_token"
  const UserInfoKey: string := "user_info"

  const NetworkErrorMessage: string := "网络错误，请稍后重试"
  const LoginFailedMessage: string := "登录失败"
  const RegisterFailedMessage: string := "注册失败"
  const GithubFailedMessage: string := "GitHub登录失败"
  const NotLoggedInMessage: string := "未登录"
  const UserFetchedMessage: string := "获取用户信息成功"
  const UserMissingMessage: string := "用户信息不存在"

  // ---------------------------------------------------------------- data

  /** The user profile the service returns; the client never looks inside it except for
      `username` (the app shell) and `id` (the change-password screen). */
  datatype UserInfo = UserInfo(
    id: string, username: string, nickname: string,
    email: Option<string>, phone: Option<string>, avatarUrl: Option<string>,
    role: int, createdAt: string)

  /** The `data` object of a login-shaped reply; an absent JSON field is None. */
  datatype SessionData = SessionData(
    user: Option<UserInfo>, accessToken: Option<string>,
    refreshToken: Option<string>, isNewUser: Option<bool>)

  /** The generic result shape `{success, message, data?, error_code?}`; a missing
      `message` is the empty string (both are falsy for `message || default`). */
  datatype ApiResponse<T> = ApiResponse(
    success: bool, message: string, data: Option<T>, errorCode: Option<string>)

  /** What a call to fetch followed by `response.json()` produced. */
  datatype Exchange =
    | TransportFailure
    | Reply(httpOk: bool, body: ApiResponse<SessionData>)

  /** A request as posted: verb, path below the configured base URL, and the JSON body
      (every field the client sends is a string). */
  datatype Request = Request(verb: string, path: string, body: map<string, string>)

  /** A pass-through call: the request posted and the result handed back. */
  datatype Call = Call(sent: Request, response: ApiResponse<SessionData>)

  /** The registration parameters; an omitted property is None. */
  datatype RegisterParams = RegisterParams(
    username: string, password: string, nickname: string,
    email: Option<string>, phone: Option<string>, emailVerificationCode: Option<string>)

  /** The GitHub identity payload handed to the OAuth exchange. */
  datatype GithubData = GithubData(
    githubId: string, username: string, nickname: string,
    email: Option<string>, avatarUrl: Option<string>)

  /** A value in the browser's store. Tokens are stored as text; the profile is stored as
      `JSON.stringify(user)`, written UserJson(user) here so that serialisation stays opaque.
      Text under `user_info` stands for text that `JSON.parse` rejects; JSON text of another
      shape, such as `null` or `{}`, is not represented. */
  datatype Item = Text(text: string) | UserJson(user: UserInfo)

  /** Truthiness of a stored value: the empty text is falsy, a serialised object never is. */
  predicate ItemTruthy(i: Item) {
    i.UserJson? || i.text != ""
  }

  function NetworkFailure<T>(): ApiResponse<T> {
    ApiResponse(false, NetworkErrorMessage, None, None)
  }

  // ---------------------------------------------------------------- the store

  /** `localStorage`: a string-keyed map the operations write key by key. */
  class LocalStorage {
    var items: map<string, Item>

    constructor (initial: map<string, Item>)
      ensures items == initial
    {
      items := initial;
    }

    method SetItem(key: string, value: Item)
      modifies this
      ensures items == old(items)[key := value]
    {
      items := items[key := value];
    }

    method RemoveItem(key: string)
      modifies this
      ensures items == old(items) - {key}
    {
      items := items - {key};
    }
  }

  // ---------------------------------------------------------------- reading the store

  /** `!!localStorage.getItem('auth_token')`. */
  predicate IsLoggedIn(items: map<string, Item>) {
    AuthTokenKey in items && ItemTruthy(items[AuthTokenKey])
  }

  /** `localStorage.getItem('auth_token')`. */
  function GetAuthToken(items: map<string, Item>): (r: Option<Item>)
    ensures r.Some? <==> AuthTokenKey in items
    ensures r.Some? ==> r.value == items[AuthTokenKey]
  {
    if AuthTokenKey in items then Some(items[AuthTokenKey]) else None
  }

  /** `getStoredUserInfo`: the stored profile, None when the key is absent or falsy. Text
      that `JSON.parse` rejects would throw there; it reads as None here. */
  function GetStoredUserInfo(items: map<string, Item>): (r: Option<UserInfo>)
    ensures r.Some? <==> UserInfoKey in items && items[UserInfoKey].UserJson?
    ensures r.Some? ==> r.value == items[UserInfoKey].user
  {
    if UserInfoKey in items && items[UserInfoKey].UserJson? then Some(items[UserInfoKey].user)
    else None
  }

  /** `getCurrentUser`: answers from the store alone, never writing it. */
  function GetCurrentUser(items: map<string, Item>): (r: ApiResponse<UserInfo>)
    ensures r.success <==> IsLoggedIn(items) && GetStoredUserInfo(items).Some?
    ensures r.success ==> r.data == GetStoredUserInfo(items) && r.message == UserFetchedMessage
    ensures !IsLoggedIn(items) ==> r == ApiResponse(false, NotLoggedInMessage, None, None)
    ensures IsLoggedIn(items) && (UserInfoKey !in items || items[UserInfoKey] == Text("")) ==>
              r == ApiResponse(false, UserMissingMessage, None, None)
    ensures (IsLoggedIn(items) && UserInfoKey in items && items[UserInfoKey].Text?
             && items[UserInfoKey].text != "") ==> r == NetworkFailure()
    ensures !r.success ==> r.data.None? && r.errorCode.None?
  {
    if !IsLoggedIn(items) then ApiResponse(false, NotLoggedInMessage, None, None)
    else if UserInfoKey !in items || !ItemTruthy(items[UserInfoKey]) then
      ApiResponse(false, UserMissingMessage, None, None)
    else match items[UserInfoKey]
      case UserJson(u) => ApiResponse(true, UserFetchedMessage, Some(u), None)
      // JSON.parse throws on text that is not a serialised profile; the catch answers
      case Text(_) => NetworkFailure()
  }

  /** The three reads see what was last written: a token written is the token read, and
      logged in exactly when it is not empty; a profile written is the profile read; a
      removed key reads as nothing. */
  lemma StoreReadsBackWrites(items: map<string, Item>, token: string, u: UserInfo)
    ensures GetAuthToken(items[AuthTokenKey := Text(token)]) == Some(Text(token))
    ensures IsLoggedIn(items[AuthTokenKey := Text(token)]) <==> token != ""
    ensures GetAuthToken(items - {AuthTokenKey}).None? && !IsLoggedIn(items - {AuthTokenKey})
    ensures GetStoredUserInfo(items[UserInfoKey := UserJson(u)]) == Some(u)
    ensures GetStoredUserInfo(items - {UserInfoKey}).None?
    ensures GetStoredUserInfo(items[UserInfoKey := Text(token)]).None?
  {
  }

  /** Only the access token decides whether a session exists: writing or removing the
      refresh token or the profile never changes it, and an empty token counts as none. */
  lemma LoggedInDependsOnTokenOnly(items: map<string, Item>, key: string, v: Item)
    requires key != AuthTokenKey
    ensures IsLoggedIn(items[key := v]) == IsLoggedIn(items)
    ensures IsLoggedIn(items - {key}) == IsLoggedIn(items)
    ensures !IsLoggedIn(items[AuthTokenKey := Text("")])
    ensures IsLoggedIn(items) <==> GetAuthToken(items).Some? && ItemTruthy(GetAuthToken(items).value)
  {
  }

  // ---------------------------------------------------------------- session replies

  /** The session data that login, register and the GitHub exchange persist: present only for
      an HTTP-ok reply with `success` whose data carries a non-empty access token. */
  function SessionToSave(reply: Exchange): (d: Option<SessionData>)
    ensures d.Some? ==> Truthy(d.value.accessToken)
    ensures d.Some? ==> reply.Reply? && d == reply.body.data
    ensures !(reply.Reply? && reply.httpOk && reply.body.success) ==> d.None?
    ensures (reply.Reply? && reply.httpOk && reply.body.success && reply.body.data.Some?
             && Truthy(reply.body.data.value.accessToken)) ==> d == reply.body.data
    ensures reply.Reply? && reply.body.data.None? ==> d.None?
  {
    if reply.Reply? && reply.httpOk && reply.body.success && reply.body.data.Some?
       && Truthy(reply.body.data.value.accessToken)
    then reply.body.data
    else None
  }

  /** The store after a login-shaped exchange: the token, then the refresh token when one is
      present, then the profile when one is present. */
  function AfterSessionReply(items: map<string, Item>, reply: Exchange): map<string, Item> {
    match SessionToSave(reply)
    case None => items
    case Some(d) =>
      var withToken := items[AuthTokenKey := Text(d.accessToken.value)];
      var withRefresh :=
        if Truthy(d.refreshToken) then withToken[RefreshTokenKey := Text(d.refreshToken.value)]
        else withToken;
      if d.user.Some? then withRefresh[UserInfoKey := UserJson(d.user.value)] else withRefresh
  }

  /** The result a login-shaped operation hands back for a reply. */
  function SessionResponse(reply: Exchange, failureMessage: string): ApiResponse<SessionData> {
    match reply
    case TransportFailure => NetworkFailure()
    case Reply(ok, result) =>
      if ok && result.success then result
      else ApiResponse(false, Or(result.message, failureMessage), None, result.errorCode)
  }

  /** Which keys a login-shaped exchange writes: on a persisted session, `auth_token` holds the
      reply's token, `refresh_token` and `user_info` are written only when the reply carries
      them and keep their old value otherwise; every other key is untouched; any other reply,
      a successful one without an access token included, leaves the store exactly as it was. */
  lemma SessionWriteRules(items: map<string, Item>, reply: Exchange)
    ensures SessionToSave(reply).None? ==> AfterSessionReply(items, reply) == items
    ensures (reply.Reply? && reply.httpOk && reply.body.success && reply.body.data.Some?
             && !Truthy(reply.body.data.value.accessToken)) ==> AfterSessionReply(items, reply) == items
    ensures SessionToSave(reply).Some? ==>
      var d, after := SessionToSave(reply).value, AfterSessionReply(items, reply);
      && AuthTokenKey in after && after[AuthTokenKey] == Text(d.accessToken.value)
      && (Truthy(d.refreshToken) ==>
            RefreshTokenKey in after && after[RefreshTokenKey] == Text(d.refreshToken.value))
      && (!Truthy(d.refreshToken) ==>
            (RefreshTokenKey in after <==> RefreshTokenKey in items)
            && (RefreshTokenKey in items ==> after[RefreshTokenKey] == items[RefreshTokenKey]))
      && (d.user.Some? ==> UserInfoKey in after && after[UserInfoKey] == UserJson(d.user.value))
      && (d.user.None? ==>
            (UserInfoKey in after <==> UserInfoKey in items)
            && (UserInfoKey in items ==> after[UserInfoKey] == items[UserInfoKey]))
    ensures forall k | k != AuthTokenKey && k != RefreshTokenKey && k != UserInfoKey ::
      (k in AfterSessionReply(items, reply) <==> k in items)
      && (k in items ==> AfterSessionReply(items, reply)[k] == items[k])
  {
  }

  /** A login-shaped result: a transport failure gives the fixed network message; an HTTP-ok
      reply with `success` is handed back unchanged (even when it carries no token and so
      nothing was stored); any other reply becomes a failure whose message is the server's or
      the operation's default, never empty, with the server's error code. */
  lemma SessionResponseRules(reply: Exchange, failureMessage: string)
    requires failureMessage != ""
    ensures reply.TransportFailure? ==>
      SessionResponse(reply, failureMessage) == ApiResponse(false, NetworkErrorMessage, None, None)
    ensures reply.Reply? && reply.httpOk && reply.body.success ==>
      SessionResponse(reply, failureMessage) == reply.body
    ensures reply.Reply? && !(reply.httpOk && reply.body.success) ==>
      var r := SessionResponse(reply, failureMessage);
      && !r.success && r.data.None? && r.errorCode == reply.body.errorCode
      && r.message == (if reply.body.message != "" then reply.body.message else failureMessage)
    ensures SessionResponse(reply, failureMessage).success <==>
      reply.Reply? && reply.httpOk && reply.body.success
    ensures !SessionResponse(reply, failureMessage).success ==>
      SessionResponse(reply, failureMessage).message != ""
  {
  }

  /** A persisted session can be read back at once: the store is logged in with exactly the
      token of the reply, and the stored profile is the reply's when it carried one. */
  lemma SavedSessionReadsBack(items: map<string, Item>, reply: Exchange)
    requires SessionToSave(reply).Some?
    ensures IsLoggedIn(AfterSessionReply(items, reply))
    ensures GetAuthToken(AfterSessionReply(items, reply))
            == Some(Text(SessionToSave(reply).value.accessToken.value))
    ensures SessionToSave(reply).value.user.Some? ==>
      GetStoredUserInfo(AfterSessionReply(items, reply)) == SessionToSave(reply).value.user
    ensures SessionToSave(reply).value.user.Some? ==>
      GetCurrentUser(AfterSessionReply(items, reply)).data == SessionToSave(reply).value.user
  {
  }

  /** The shared body of loginWithPassword, register and githubOAuth once the request is
      posted: persist the session key by key on success, then answer. */
  method ExchangeSession(storage: LocalStorage, reply: Exchange, failureMessage: string)
    returns (r: ApiResponse<SessionData>)
    modifies storage
    ensures storage.items == AfterSessionReply(old(storage.items), reply)
    ensures r == SessionResponse(reply, failureMessage)
  {
    match reply
    case TransportFailure =>
      r := NetworkFailure();
    case Reply(ok, result) =>
      if ok && result.success {
        if result.data.Some? && Truthy(result.data.value.accessToken) {
          var data := result.data.value;
          storage.SetItem(AuthTokenKey, Text(data.accessToken.value));
          if Truthy(data.refreshToken) {
            storage.SetItem(RefreshTokenKey, Text(data.refreshToken.value));
          }
          if data.user.Some? {
            storage.SetItem(UserInfoKey, UserJson(data.user.value));
          }
        }
        r := result;
      } else {
        r := ApiResponse(false, Or(result.message, failureMessage), None, result.errorCode);
      }
  }

  // ---------------------------------------------------------------- login-shaped operations

  function LoginRequest(identifier: string, password: string): Request {
    Request("POST", "/auth/login", map["identifier" := identifier, "password" := password])
  }

  /** `loginWithPassword`: posts only the identifier and the password (the remember and
      auto-login flags are not sent). */
  method LoginWithPassword(storage: LocalStorage, identifier: string, password: string, reply: Exchange)
    returns (sent: Request, r: ApiResponse<SessionData>)
    modifies storage
    ensures sent == LoginRequest(identifier, password)
    ensures sent.body.Keys == {"identifier", "password"}
    ensures storage.items == AfterSessionReply(old(storage.items), reply)
    ensures r == SessionResponse(reply, LoginFailedMessage)
  {
    sent := LoginRequest(identifier, password);
    r := ExchangeSession(storage, reply, LoginFailedMessage);
  }

  /** The fields of the registration body: username, password and nickname always; `email`
      exactly when a non-empty email is given; the verification code exactly when both it and
      the email are non-empty; `phone` exactly when a non-empty phone is given. */
  predicate IsRegisterBody(p: RegisterParams, body: map<string, string>) {
    && body.Keys <= {"username", "password", "nickname", "email", "email_verification_code", "phone"}
    && "username" in body && body["username"] == p.username
    && "password" in body && body["password"] == p.password
    && "nickname" in body && body["nickname"] == p.nickname
    && ("email" in body <==> Truthy(p.email))
    && ("email" in body ==> body["email"] == p.email.value)
    && ("email_verification_code" in body <==> Truthy(p.email) && Truthy(p.emailVerificationCode))
    && ("email_verification_code" in body ==> body["email_verification_code"] == p.emailVerificationCode.value)
    && ("phone" in body <==> Truthy(p.phone))
    && ("phone" in body ==> body["phone"] == p.phone.value)
  }

  /** The request body of `register`, built by conditional field assignment. */
  method RegisterRequestBody(p: RegisterParams) returns (body: map<string, string>)
    ensures IsRegisterBody(p, body)
  {
    body := map["username" := p.username, "password" := p.password, "nickname" := p.nickname];
    if Truthy(p.email) {
      body := body["email" := p.email.value];
      if Truthy(p.emailVerificationCode) {
        body := body["email_verification_code" := p.emailVerificationCode.value];
      }
    }
    if Truthy(p.phone) {
      body := body["phone" := p.phone.value];
    }
  }

  /** The body rules leave no freedom: two bodies that follow them for the same parameters
      are the same body. */
  lemma {:induction false} RegisterBodyIsDetermined(p: RegisterParams, b1: map<string, string>, b2: map<string, string>)
    requires IsRegisterBody(p, b1) && IsRegisterBody(p, b2)
    ensures b1 == b2
  {
    forall k | k in b1 ensures k in b2 && b1[k] == b2[k] {
      assert k in {"username", "password", "nickname", "email", "email_verification_code", "phone"};
    }
    forall k | k in b2 ensures k in b1 {
      assert k in {"username", "password", "nickname", "email", "email_verification_code", "phone"};
    }
  }

  /** `register`: persists the session with the same key rules as login. */
  method Register(storage: LocalStorage, p: RegisterParams, reply: Exchange)
    returns (sent: Request, r: ApiResponse<SessionData>)
    modifies storage
    ensures sent.verb == "POST" && sent.path == "/auth/register" && IsRegisterBody(p, sent.body)
    ensures storage.items == AfterSessionReply(old(storage.items), reply)
    ensures r == SessionResponse(reply, RegisterFailedMessage)
  {
    var body := RegisterRequestBody(p);
    sent := Request("POST", "/auth/register", body);
    r := ExchangeSession(storage, reply, RegisterFailedMessage);
  }

  /** `JSON.stringify(githubData)`: undefined properties are dropped, empty strings kept. */
  function GithubBody(g: GithubData): (body: map<string, string>)
    ensures "github_id" in body && body["github_id"] == g.githubId
    ensures "username" in body && body["username"] == g.username
    ensures "nickname" in body && body["nickname"] == g.nickname
    ensures "email" in body <==> g.email.Some?
    ensures g.email.Some? ==> body["email"] == g.email.value
    ensures "avatar_url" in body <==> g.avatarUrl.Some?
    ensures g.avatarUrl.Some? ==> body["avatar_url"] == g.avatarUrl.value
    ensures |body| == 3 + (if g.email.Some? then 1 else 0) + (if g.avatarUrl.Some? then 1 else 0)
  {
    var base := map["github_id" := g.githubId, "username" := g.username, "nickname" := g.nickname];
    var withEmail := if g.email.Some? then base["email" := g.email.value] else base;
    if g.avatarUrl.Some? then withEmail["avatar_url" := g.avatarUrl.value] else withEmail
  }

  /** `githubOAuth`: persists the session with the same key rules as login. */
  method GithubOAuth(storage: LocalStorage, g: GithubData, reply: Exchange)
    returns (sent: Request, r: ApiResponse<SessionData>)
    modifies storage
    ensures sent == Request("POST", "/auth/github", GithubBody(g))
    ensures storage.items == AfterSessionReply(old(storage.items), reply)
    ensures r == SessionResponse(reply, GithubFailedMessage)
  {
    sent := Request("POST", "/auth/github", GithubBody(g));
    r := ExchangeSession(storage, reply, GithubFailedMessage);
  }

  /** The username a screen reports after a successful login or registration:
      `response.data?.user.username || fallback`. With data present but no user, reading
      `.username` throws, which is None here. */
  function ReportedUsername(data: Option<SessionData>, fallback: string): (r: Option<string>)
    ensures r.None? <==> data.Some? && data.value.user.None?
    ensures data.None? ==> r == Some(fallback)
    ensures data.Some? && data.value.user.Some? && data.value.user.value.username != "" ==>
      r == Some(data.value.user.value.username)
    ensures data.Some? && data.value.user.Some? && data.value.user.value.username == "" ==>
      r == Some(fallback)
    ensures r.Some? && fallback != "" ==> r.value != ""
  {
    match data
    case None => Some(fallback)
    case Some(d) => if d.user.Some? then Some(Or(d.user.value.username, fallback)) else None
  }

  // ---------------------------------------------------------------- pass-through operations

  /** The reply body as it came, whatever the HTTP status; the network message otherwise. */
  function PassThrough(reply: Exchange): ApiResponse<SessionData> {
    if reply.Reply? then reply.body else NetworkFailure()
  }

  /** `sendPasswordResetCode`. */
  function SendPasswordResetCode(identifier: string, reply: Exchange): (c: Call)
    ensures c.sent == Request("POST", "/auth/forgot-password", map["identifier" := identifier])
    ensures reply.Reply? ==> c.response == reply.body
    ensures reply.TransportFailure? ==> c.response == ApiResponse(false, NetworkErrorMessage, None, None)
  {
    Call(Request("POST", "/auth/forgot-password", map["identifier" := identifier]), PassThrough(reply))
  }

  /** `resetPassword`. */
  function ResetPassword(identifier: string, verificationCode: string, newPassword: string, reply: Exchange): (c: Call)
    ensures c.sent == Request("POST", "/auth/reset-password",
      map["identifier" := identifier, "verification_code" := verificationCode, "new_password" := newPassword])
    ensures reply.Reply? ==> c.response == reply.body
    ensures reply.TransportFailure? ==> c.response == ApiResponse(false, NetworkErrorMessage, None, None)
  {
    Call(Request("POST", "/auth/reset-password",
        map["identifier" := identifier, "verification_code" := verificationCode, "new_password" := newPassword]),
      PassThrough(reply))
  }

  /** `sendEmailVerificationCode`. */
  function SendEmailVerificationCode(email: string, reply: Exchange): (c: Call)
    ensures c.sent == Request("POST", "/auth/send-email-verification", map["email" := email])
    ensures reply.Reply? ==> c.response == reply.body
    ensures reply.TransportFailure? ==> c.response == ApiResponse(false, NetworkErrorMessage, None, None)
  {
    Call(Request("POST", "/auth/send-email-verification", map["email" := email]), PassThrough(reply))
  }

  /** `verifyEmailCode`. */
  function VerifyEmailCode(email: string, verificationCode: string, reply: Exchange): (c: Call)
    ensures c.sent == Request("POST", "/auth/verify-email",
      map["email" := email, "verification_code" := verificationCode])
    ensures reply.Reply? ==> c.response == reply.body
    ensures reply.TransportFailure? ==> c.response == ApiResponse(false, NetworkErrorMessage, None, None)
  {
    Call(Request("POST", "/auth/verify-email", map["email" := email, "verification_code" := verificationCode]),
      PassThrough(reply))
  }

  /** `changePassword` (a PUT; its bearer header is not modelled). */
  function ChangePassword(userId: string, oldPassword: string, newPassword: string, reply: Exchange): (c: Call)
    ensures c.sent == Request("PUT", "/auth/change-password",
      map["user_id" := userId, "old_password" := oldPassword, "new_password" := newPassword])
    ensures reply.Reply? ==> c.response == reply.body
    ensures reply.TransportFailure? ==> c.response == ApiResponse(false, NetworkErrorMessage, None, None)
  {
    Call(Request("PUT", "/auth/change-password",
        map["user_id" := userId, "old_password" := oldPassword, "new_password" := newPassword]),
      PassThrough(reply))
  }

  // ---------------------------------------------------------------- logout

  /** The store after `logout`: the two tokens are gone, everything else stays. */
  function AfterLogout(items: map<string, Item>): (after: map<string, Item>)
    ensures AuthTokenKey !in after && RefreshTokenKey !in after
    ensures forall k | k in items && k != AuthTokenKey && k != RefreshTokenKey :: k in after && after[k] == items[k]
    ensures after.Keys <= items.Keys
  {
    items - {AuthTokenKey, RefreshTokenKey}
  }

  /** `logout`: local only, no request. */
  method Logout(storage: LocalStorage)
    modifies storage
    ensures storage.items == AfterLogout(old(storage.items))
  {
    storage.RemoveItem(AuthTokenKey);
    storage.RemoveItem(RefreshTokenKey);
  }

  /** After logout nobody is logged in and `getCurrentUser` answers "not logged in", yet the
      stored profile is still there. */
  lemma LogoutEndsSession(items: map<string, Item>)
    ensures !IsLoggedIn(AfterLogout(items))
    ensures GetAuthToken(AfterLogout(items)).None?
    ensures GetCurrentUser(AfterLogout(items)).message == NotLoggedInMessage
    ensures GetStoredUserInfo(AfterLogout(items)) == GetStoredUserInfo(items)
  {
  }
}

=== FILE: change_password_form.dfy ===
/** The change-password screen of src/components/ChangePasswordForm.tsx: three password fields,
    their show/hide toggles, the ordered validator, and the submit handler, which sends the
    stored profile's id with the old and the new password. The profile is the one read from
    the store when the screen renders, which is the store as the handler finds it. */
module ChangePasswordForm {
  import opened Js
  import opened Checks
  import opened Auth

  const OldPasswordMissingMessage: string := "请输入当前密码"
  const NewPasswordMissingMessage: string := "请输入新密码"
  const NewPasswordTooShortMessage: string := "新密码至少需要6个字符"
  const ConfirmMissingMessage: string := "请确认新密码"
  const ConfirmMismatchMessage: string := "两次输入的新密码不一致"
  const SameAsOldMessage: string := "新密码不能与当前密码相同"
  const UserInfoMissingMessage: string := "用户信息获取失败，请重新登录"
  const ChangedMessage: string := "密码修改成功！"
  const ChangeFailedMessage: string := "密码修改失败"

  // ---------------------------------------------------------------- form data

  datatype Field = OldPassword | NewPassword | ConfirmPassword

  datatype FormData = FormData(oldPassword: string, newPassword: string, confirmPassword: string)
  {
    function Get(f: Field): string {
      match f
      case OldPassword => oldPassword
      case NewPassword => newPassword
      case ConfirmPassword => confirmPassword
    }

    /** `{ ...formData, [field]: value }`. */
    function With(f: Field, v: string): (d: FormData)
      ensures d.Get(f) == v
      ensures forall g: Field | g != f :: d.Get(g) == Get(g)
    {
      match f
      case OldPassword => this.(oldPassword := v)
      case NewPassword => this.(newPassword := v)
      case ConfirmPassword => this.(confirmPassword := v)
    }
  }

  const EmptyForm: FormData := FormData("", "", "")

  /** Whether each of the three fields shows its text. */
  datatype Visibility = Visibility(oldShown: bool, newShown: bool, confirmShown: bool)
  {
    function Get(f: Field): bool {
      match f
      case OldPassword => oldShown
      case NewPassword => newShown
      case ConfirmPassword => confirmShown
    }

    /** `{ ...showPasswords, [field]: !showPasswords[field] }`. */
    function Toggled(f: Field): (v: Visibility)
      ensures v.Get(f) == !Get(f)
      ensures forall g: Field | g != f :: v.Get(g) == Get(g)
    {
      match f
      case OldPassword => this.(oldShown := !oldShown)
      case NewPassword => this.(newShown := !newShown)
      case ConfirmPassword => this.(confirmShown := !confirmShown)
    }
  }

  // ---------------------------------------------------------------- validation

  /** The checks of `validateForm`, in the order the code makes them. */
  function Rules(d: FormData): seq<Rule> {
    [ Rule(d.oldPassword != "", OldPasswordMissingMessage),
      Rule(d.newPassword != "", NewPasswordMissingMessage),
      Rule(Utf16Length(d.newPassword) >= 6, NewPasswordTooShortMessage),
      Rule(d.confirmPassword != "", ConfirmMissingMessage),
      Rule(d.newPassword == d.confirmPassword, ConfirmMismatchMessage),
      Rule(d.oldPassword != d.newPassword, SameAsOldMessage) ]
  }

  /** The message `validateForm` shows, None when the form passes. */
  function Validation(d: FormData): Option<string> {
    Verdict(Rules(d))
  }

  /** The verdict of the rule list, read as the chain of tests it stands for. */
  lemma ValidationUnrolled(d: FormData)
    ensures Validation(d) ==
      if d.oldPassword == "" then Some(OldPasswordMissingMessage)
      else if d.newPassword == "" then Some(NewPasswordMissingMessage)
      else if Utf16Length(d.newPassword) < 6 then Some(NewPasswordTooShortMessage)
      else if d.confirmPassword == "" then Some(ConfirmMissingMessage)
      else if d.newPassword != d.confirmPassword then Some(ConfirmMismatchMessage)
      else if d.oldPassword == d.newPassword then Some(SameAsOldMessage)
      else None
  {
    VerdictOfSix(Rules(d));
  }

  /** The form passes exactly when the current password is given, the new one has at least
      six characters, the confirmation repeats it and it differs from the current one; the
      two emptiness checks on the new password and the confirmation are then implied. */
  lemma ValidationPassesIff(d: FormData)
    ensures Validation(d).None? <==>
      && d.oldPassword != "" && Utf16Length(d.newPassword) >= 6
      && d.confirmPassword == d.newPassword && d.newPassword != d.oldPassword
  {
    ValidationUnrolled(d);
  }

  /** A five-character new password is refused by the length check, whatever it is
      confirmed with, once a current password is given. */
  lemma ShortNewPasswordRejected(d: FormData)
    requires d.oldPassword != "" && d.newPassword == "abcde"
    ensures Validation(d) == Some(NewPasswordTooShortMessage)
  {
    ValidationUnrolled(d);
    assert Utf16Length("abcde") == 5;
  }

  /** Re-entering the current password as the new one is refused by the last check only. */
  lemma SamePasswordRejected(d: FormData)
    requires d.oldPassword == d.newPassword == d.confirmPassword
    requires Utf16Length(d.newPassword) >= 6
    ensures Validation(d) == Some(SameAsOldMessage)
  {
    ValidationUnrolled(d);
  }

  // ---------------------------------------------------------------- the screen

  class ChangePasswordForm {
    var formData: FormData
    var showPasswords: Visibility
    var loading: bool
    var error: string
    var success: string

    constructor ()
      ensures formData == EmptyForm && showPasswords == Visibility(false, false, false)
      ensures !loading && error == "" && success == ""
    {
      formData := EmptyForm;
      showPasswords := Visibility(false, false, false);
      loading, error, success := false, "", "";
    }

    /** `handleInputChange`: one field changes, and both the error and the success notice
        are cleared. */
    method HandleInputChange(f: Field, v: string)
      modifies this`formData, this`error, this`success
      ensures formData == old(formData).With(f, v)
      ensures formData.Get(f) == v && forall g: Field | g != f :: formData.Get(g) == old(formData).Get(g)
      ensures error == "" && success == ""
    {
      formData := formData.With(f, v);
      error := "";
      success := "";
    }

    /** `togglePasswordVisibility`: flips one field's visibility and no other. */
    method TogglePasswordVisibility(f: Field)
      modifies this`showPasswords
      ensures showPasswords == old(showPasswords).Toggled(f)
      ensures showPasswords.Get(f) == !old(showPasswords).Get(f)
      ensures forall g: Field | g != f :: showPasswords.Get(g) == old(showPasswords).Get(g)
    {
      showPasswords := showPasswords.Toggled(f);
    }

    /** `validateForm`: the checks in order; the first that fails writes its message. */
    method ValidateForm() returns (ok: bool)
      modifies this`error
      ensures ok <==> Validation(formData).None?
      ensures !ok ==> error == Validation(formData).value
      ensures ok ==> error == old(error)
    {
      var d := formData;
      ValidationUnrolled(d);
      ok := false;
      if d.oldPassword == "" { error := OldPasswordMissingMessage; return; }
      if d.newPassword == "" { error := NewPasswordMissingMessage; return; }
      if Utf16Length(d.newPassword) < 6 { error := NewPasswordTooShortMessage; return; }
      if d.confirmPassword == "" { error := ConfirmMissingMessage; return; }
      if d.newPassword != d.confirmPassword { error := ConfirmMismatchMessage; return; }
      if d.oldPassword == d.newPassword { error := SameAsOldMessage; return; }
      ok := true;
    }

    /** `handleSubmit`: both notices are cleared first. A form that fails validation shows
        the first failing check's message; a store without a profile, or a profile with an
        empty id, shows the re-login message; neither sends anything. Otherwise the change
        is requested for the stored id: success shows the success notice and clears the
        three fields, failure shows the server's message or the default and keeps them.
        Any request sent carries a new password of at least six characters that differs
        from the old one. */
    method HandleSubmit(storage: LocalStorage, reply: Exchange) returns (sent: Option<Request>)
      modifies this`formData, this`loading, this`error, this`success
      ensures Validation(old(formData)).Some? ==>
        && sent.None? && error == Validation(old(formData)).value && success == ""
        && formData == old(formData) && loading == old(loading)
      ensures Validation(old(formData)).None? && !Truthy(IdOf(GetStoredUserInfo(storage.items))) ==>
        && sent.None? && error == UserInfoMissingMessage && success == ""
        && formData == old(formData) && loading == old(loading)
      ensures Validation(old(formData)).None? && Truthy(IdOf(GetStoredUserInfo(storage.items))) ==>
        var c := ChangePassword(GetStoredUserInfo(storage.items).value.id,
                                old(formData).oldPassword, old(formData).newPassword, reply);
        && sent == Some(c.sent) && !loading
        && (c.response.success ==> success == ChangedMessage && error == "" && formData == EmptyForm)
        && (!c.response.success ==>
              && success == "" && error == Or(c.response.message, ChangeFailedMessage)
              && formData == old(formData))
      ensures sent.Some? ==>
        var b := sent.value.body;
        && "new_password" in b && "old_password" in b
        && Utf16Length(b["new_password"]) >= 6 && b["new_password"] != b["old_password"]
    {
      error := "";
      success := "";
      var ok := ValidateForm();
      if !ok {
        return None;
      }
      ValidationPassesIff(formData);
      var userInfo := GetStoredUserInfo(storage.items);
      if !Truthy(IdOf(userInfo)) {
        error := UserInfoMissingMessage;
        return None;
      }
      loading := true;
      var c := ChangePassword(userInfo.value.id, formData.oldPassword, formData.newPassword, reply);
      sent := Some(c.sent);
      if c.response.success {
        success := ChangedMessage;
        formData := EmptyForm;
      } else {
        error := Or(c.response.message, ChangeFailedMessage);
      }
      loading := false;
    }
  }

  /** `userInfo?.id`: absent when there is no profile. */
  function IdOf(u: Option<UserInfo>): (r: Option<string>)
    ensures Truthy(r) <==> u.Some? && u.value.id != ""
    ensures Truthy(r) ==> r.value == u.value.id
  {
    if u.Some? then Some(u.value.id) else None
  }
}

=== FILE: checks.dfy ===
/** The shape shared by the validators of the registration and change-password screens:
    an ordered list of checks, of which the first that fails decides the message shown. */
module Checks {
  import opened Js

  /** One client-side check: whether it holds, and the message shown when it does not. */
  datatype Rule = Rule(holds: bool, message: string)

  /** The position of the first failing rule, or |rules| when every rule holds. */
  function FirstFailing(rules: seq<Rule>): (k: nat)
    ensures k <= |rules|
    ensures forall j | 0 <= j < k :: rules[j].holds
    ensures k < |rules| ==> !rules[k].holds
  {
    if rules == [] then 0
    else if !rules[0].holds then 0
    else 1 + FirstFailing(rules[1..])
  }

  /** The message of the first failing rule; None when all of them hold. */
  function Verdict(rules: seq<Rule>): (r: Option<string>)
    ensures r.None? <==> forall j | 0 <= j < |rules| :: rules[j].holds
    ensures r.Some? ==>
      exists k | 0 <= k < |rules| :: && !rules[k].holds && rules[k].message == r.value
                                    && forall j | 0 <= j < k :: rules[j].holds
  {
    var k := FirstFailing(rules);
    if k == |rules| then None else Some(rules[k].message)
  }

  /** The verdict of nine rules, read as the chain of tests it stands for. */
  lemma VerdictOfNine(rs: seq<Rule>)
    requires |rs| == 9
    ensures Verdict(rs) ==
      if !rs[0].holds then Some(rs[0].message)
      else if !rs[1].holds then Some(rs[1].message)
      else if !rs[2].holds then Some(rs[2].message)
      else if !rs[3].holds then Some(rs[3].message)
      else if !rs[4].holds then Some(rs[4].message)
      else if !rs[5].holds then Some(rs[5].message)
      else if !rs[6].holds then Some(rs[6].message)
      else if !rs[7].holds then Some(rs[7].message)
      else if !rs[8].holds then Some(rs[8].message)
      else None
  {
    var k := FirstFailing(rs);
    assert forall j | 0 <= j < k :: rs[j].holds;
  }

  /** The verdict of six rules, read as the chain of tests it stands for. */
  lemma VerdictOfSix(rs: seq<Rule>)
    requires |rs| == 6
    ensures Verdict(rs) ==
      if !rs[0].holds then Some(rs[0].message)
      else if !rs[1].holds then Some(rs[1].message)
      else if !rs[2].holds then Some(rs[2].message)
      else if !rs[3].holds then Some(rs[3].message)
      else if !rs[4].holds then Some(rs[4].message)
      else if !rs[5].holds then Some(rs[5].message)
      else None
  {
    var k := FirstFailing(rs);
    assert forall j | 0 <= j < k :: rs[j].holds;
  }
}

=== FILE: js.dfy ===
/** The parts of JavaScript's string semantics that the screens and the auth client rely on:
    the truthiness of strings, `s || fallback`, `String.prototype.trim`, the `\s` class of
    regular expressions and `s.length` (which counts UTF-16 code units, not code points). */
module Js {

  datatype Option<+T> = None | Some(value: T)

  /** `!!o` for an optional string field of a JSON object: absent and empty are both falsy. */
  predicate Truthy(o: Option<string>) {
    o.Some? && o.value != ""
  }

  /** `s || fallback` on strings: the empty string is falsy. */
  function Or(s: string, fallback: string): string {
    if s != "" then s else fallback
  }

  /** A code point that `\s` matches and `trim` removes: the WhiteSpace and LineTerminator
      code points of ECMAScript (tab, line feed, vertical tab, form feed, carriage return,
      space, no-break space, the Zs category, line and paragraph separator, byte order mark). */
  predicate IsWhitespace(c: char) {
    || c == '\t' || c == '\n' || c == '\U{B}' || c == '\U{C}' || c == '\r' || c == ' '
    || c == '\U{A0}' || c == '\U{1680}' || ('\U{2000}' <= c <= '\U{200A}')
    || c == '\U{2028}' || c == '\U{2029}' || c == '\U{202F}' || c == '\U{205F}'
    || c == '\U{3000}' || c == '\U{FEFF}'
  }

  /** `s.trim()`: removes white space from both ends. The screens only ever test whether the
      result is empty, which happens exactly when `s` is all white space. */
  function Trim(s: string): (t: string)
    ensures |t| <= |s|
    ensures t == [] <==> forall k | 0 <= k < |s| :: IsWhitespace(s[k])
    ensures t != [] ==> !IsWhitespace(t[0]) && !IsWhitespace(t[|t| - 1])
    decreases |s|
  {
    if s == [] then []
    else if IsWhitespace(s[0]) then Trim(s[1..])
    else if IsWhitespace(s[|s| - 1]) then Trim(s[..|s| - 1])
    else s
  }

  /** The code units a code point takes in UTF-16. */
  function Utf16Units(c: char): nat {
    if c as int < 0x1_0000 then 1 else 2
  }

  /** `s.length` in JavaScript: the number of UTF-16 code units of `s`. */
  function Utf16Length(s: string): (n: nat)
    ensures |s| <= n <= 2 * |s|
    ensures (forall k | 0 <= k < |s| :: Utf16Units(s[k]) == 1) ==> n == |s|
  {
    if s == [] then 0 else Utf16Units(s[0]) + Utf16Length(s[1..])
  }

  /** `length` adds up over concatenation, and a single code point outside the basic plane
      (a surrogate pair) counts two: "😀".length is 2 although it is one character. */
  lemma {:induction false} Utf16LengthConcat(a: string, b: string)
    ensures Utf16Length(a + b) == Utf16Length(a) + Utf16Length(b)
    ensures Utf16Length([]) == 0
    ensures forall c: char :: Utf16Length([c]) == Utf16Units(c)
    ensures forall c: char :: Utf16Units(c) == 2 <==> c as int >= 0x1_0000
    decreases |a|
  {
    if a == [] {
      assert a + b == b;
    } else {
      assert (a + b)[1..] == a[1..] + b;
      Utf16LengthConcat(a[1..], b);
    }
    forall c: char ensures Utf16Length([c]) == Utf16Units(c) {
      assert [c][1..] == [];
    }
  }

  /** Appending one character grows `length` by that character's units. */
  lemma Utf16LengthSnoc(s: string, c: char)
    ensures Utf16Length(s + [c]) == Utf16Length(s) + Utf16Units(c)
  {
    Utf16LengthConcat(s, [c]);
  }

  /** The positions of `s` holding a code point outside the basic plane. */
  function AstralPositions(s: string): set<int> {
    set k | 0 <= k < |s| && s[k] as int >= 0x1_0000
  }

  /** A string of n characters of which m lie outside the basic plane has `length` n + m. */
  lemma {:induction false} Utf16LengthCountsAstral(s: string)
    ensures Utf16Length(s) == |s| + |AstralPositions(s)|
    decreases |s|
  {
    if s != [] {
      var p, c := s[..|s| - 1], s[|s| - 1];
      assert s == p + [c];
      Utf16LengthCountsAstral(p);
      Utf16LengthSnoc(p, c);
      Utf16LengthConcat(p, [c]);
      var extra: set<int> := if c as int >= 0x1_0000 then {|p|} else {};
      assert AstralPositions(s) == AstralPositions(p) + extra;
      assert |p| !in AstralPositions(p);
    }
  }
}

=== FILE: login_form.dfy ===
/** The login screen of src/components/LoginForm.tsx: three modes, a `codeSent` latch on the
    reset-code request, and `loading`/`error` fields written by each handler. A handler runs to
    completion in one step (its request and the reply are one event). The buttons' disabled
    rules are the predicates CanSubmit and CanSendCode; the handlers themselves do not check
    them, so their contracts hold whether or not the control was enabled. */
module LoginForm {
  import opened Js
  import opened Auth

  datatype LoginMode = PasswordMode | CodeMode | ResetMode

  const LoginCheckMessage: string := "登录失败，请检查用户名和密码"
  const CodeLoginUnavailableMessage: string := "验证码登录功能暂未开放，请使用密码登录"
  const IdentifierMissingMessage: string := "请输入用户名/手机/邮箱"
  const SendFailedMessage: string := "发送失败"
  const ResetFailedMessage: string := "重置失败"

  class LoginForm {
    var loginMode: LoginMode
    var identifier: string
    var password: string
    var verificationCode: string
    var newPassword: string
    var loading: bool
    var error: string
    var codeSent: bool

    constructor ()
      ensures loginMode == PasswordMode
      ensures identifier == "" && password == "" && verificationCode == "" && newPassword == ""
      ensures !loading && error == "" && !codeSent
    {
      loginMode := PasswordMode;
      identifier, password, verificationCode, newPassword := "", "", "", "";
      loading, error, codeSent := false, "", false;
    }

    /** The submit buttons of both forms are disabled while loading. */
    predicate CanSubmit()
      reads this
    {
      !loading
    }

    /** The reset-code button is disabled while loading and once a code was sent. */
    predicate CanSendCode()
      reads this
      ensures CanSendCode() ==> CanSubmit()
      ensures codeSent ==> !CanSendCode()
    {
      !loading && !codeSent
    }

    // ------------------------------------------------------------ inputs and mode switches

    method EnterIdentifier(v: string)
      modifies this`identifier
      ensures identifier == v
    {
      identifier := v;
    }

    method EnterPassword(v: string)
      modifies this`password
      ensures password == v
    {
      password := v;
    }

    method EnterVerificationCode(v: string)
      modifies this`verificationCode
      ensures verificationCode == v
    {
      verificationCode := v;
    }

    method EnterNewPassword(v: string)
      modifies this`newPassword
      ensures newPassword == v
    {
      newPassword := v;
    }

    /** The two tabs, the "forgot password" link and the cancel button of the reset view:
        each sets the mode and nothing else (cancel does not reset `codeSent`). */
    method SwitchMode(m: LoginMode)
      modifies this`loginMode
      ensures loginMode == m
    {
      loginMode := m;
    }

    // ------------------------------------------------------------ handlers

    /** `handlePasswordLogin`: on success reports the server's username (the identifier when
        it is empty or there is no data) and leaves the error empty; when the success reply
        has data but no user, reading the username throws and the network message is shown
        instead. On failure the error is the auth client's message: that message is never
        empty, so the screen's own default never shows. Loading ends false either way. */
    method HandlePasswordLogin(storage: LocalStorage, reply: Exchange)
      returns (sent: Request, reported: Option<string>)
      modifies this`loading, this`error, storage
      ensures sent == LoginRequest(identifier, password)
      ensures storage.items == AfterSessionReply(old(storage.items), reply)
      ensures !loading
      ensures var r := SessionResponse(reply, LoginFailedMessage);
        && (r.success ==> reported == ReportedUsername(r.data, identifier)
                          && error == (if reported.Some? then "" else NetworkErrorMessage))
        && (!r.success ==> reported.None? && error == r.message && error != "")
      ensures reply.Reply? && reply.httpOk && reply.body.success && reply.body.data.None? ==>
        reported == Some(identifier)
      ensures (reply.Reply? && reply.httpOk && reply.body.success && reply.body.data.Some?
               && reply.body.data.value.user.Some?) ==>
        var name := reply.body.data.value.user.value.username;
        && reported == Some(if name != "" then name else identifier) && error == ""
    {
      error := "";
      loading := true;
      var r;
      sent, r := LoginWithPassword(storage, identifier, password, reply);
      if r.success {
        reported := ReportedUsername(r.data, identifier);
        if reported.None? {
          error := NetworkErrorMessage;
        }
      } else {
        reported := None;
        error := Or(r.message, LoginCheckMessage);
      }
      loading := false;
    }

    /** `handleCodeLogin`: code login is not available; a fixed message, no request. */
    method HandleCodeLogin()
      modifies this`error, this`loading
      ensures error == CodeLoginUnavailableMessage && !loading
    {
      error := CodeLoginUnavailableMessage;
      loading := false;
    }

    /** `handleSendLoginCode`, also bound as `handleSendResetCode`. An empty identifier sets an
        error and sends nothing. Otherwise the reset code is requested: success latches
        `codeSent` (which disables the button), failure shows the server message or the
        default and leaves the latch alone; loading ends false. */
    method HandleSendLoginCode(reply: Exchange) returns (sent: Option<Request>)
      modifies this`loading, this`error, this`codeSent
      ensures identifier == "" ==>
        sent.None? && error == IdentifierMissingMessage
        && loading == old(loading) && codeSent == old(codeSent)
      ensures identifier != "" ==>
        var c := SendPasswordResetCode(identifier, reply);
        && sent == Some(c.sent) && !loading
        && (c.response.success ==> codeSent && error == "" && !CanSendCode())
        && (!c.response.success ==>
              codeSent == old(codeSent) && error == Or(c.response.message, SendFailedMessage))
    {
      if identifier == "" {
        error := IdentifierMissingMessage;
        return None;
      }
      loading := true;
      error := "";
      var c := SendPasswordResetCode(identifier, reply);
      sent := Some(c.sent);
      if c.response.success {
        codeSent := true;
      } else {
        error := Or(c.response.message, SendFailedMessage);
      }
      loading := false;
    }

    /** `handleResetPassword`: on success back to password mode with the code and the new
        password cleared and the latch released, the identifier kept; on failure everything
        but the error stays, so the screen remains in reset mode. */
    method HandleResetPassword(reply: Exchange) returns (sent: Request)
      modifies this`loginMode, this`verificationCode, this`newPassword, this`codeSent
      modifies this`loading, this`error
      ensures var c := ResetPassword(identifier, old(verificationCode), old(newPassword), reply);
        && sent == c.sent && !loading
        && (c.response.success ==>
              && loginMode == PasswordMode && verificationCode == "" && newPassword == ""
              && !codeSent && error == "")
        && (!c.response.success ==>
              && loginMode == old(loginMode) && verificationCode == old(verificationCode)
              && newPassword == old(newPassword) && codeSent == old(codeSent)
              && error == Or(c.response.message, ResetFailedMessage))
    {
      error := "";
      loading := true;
      var c := ResetPassword(identifier, verificationCode, newPassword, reply);
      sent := c.sent;
      if c.response.success {
        loginMode := PasswordMode;
        verificationCode := "";
        newPassword := "";
        codeSent := false;
      } else {
        error := Or(c.response.message, ResetFailedMessage);
      }
      loading := false;
    }
  }

  /** Which handler a submit runs: the reset view's form resets the password, the other view's
      form logs in with the password in password mode and with a code otherwise. */
  datatype SubmitHandler = ResetPasswordHandler | PasswordLoginHandler | CodeLoginHandler

  function SubmitHandlerFor(m: LoginMode): (h: SubmitHandler)
    ensures h == ResetPasswordHandler <==> m == ResetMode
    ensures h == PasswordLoginHandler <==> m == PasswordMode
  {
    match m
    case ResetMode => ResetPasswordHandler
    case PasswordMode => PasswordLoginHandler
    case CodeMode => CodeLoginHandler
  }
}

=== FILE: register_form.dfy ===
/** The registration screen of src/components/RegisterForm.tsx: the form fields, the email and
    mobile-number patterns, the ordered validator, the send-code handler with its 60-step
    resend cooldown, and the submit handler. The interval timer is a discrete Tick; tearing the
    screen down clears it. */
module RegisterForm {
  import opened Js
  import opened Checks
  import opened Auth

  const ResendSeconds: nat := 60

  const EmailMissingMessage: string := "请先输入邮箱地址"
  const EmailFormatMessage: string := "邮箱格式不正确"
  const SendCodeFailedMessage: string := "发送验证码失败"
  const UsernameMissingMessage: string := "请输入用户名"
  const UsernameTooShortMessage: string := "用户名至少需要3个字符"
  const PasswordMissingMessage: string := "请输入密码"
  const PasswordTooShortMessage: string := "密码至少需要6个字符"
  const NicknameMissingMessage: string := "请输入昵称"
  const EmailRequiredMessage: string := "请输入邮箱"
  const PhoneFormatMessage: string := "手机号格式不正确"
  const EmailCodeMissingMessage: string := "请输入邮箱验证码"

  // ---------------------------------------------------------------- form data

  datatype Field = Username | Password | Nickname | Email | Phone | EmailCode

  datatype FormData = FormData(
    username: string, password: string, nickname: string,
    email: string, phone: string, emailCode: string)
  {
    function Get(f: Field): string {
      match f
      case Username => username
      case Password => password
      case Nickname => nickname
      case Email => email
      case Phone => phone
      case EmailCode => emailCode
    }

    /** `{ ...formData, [field]: value }`. */
    function With(f: Field, v: string): (d: FormData)
      ensures d.Get(f) == v
      ensures forall g: Field | g != f :: d.Get(g) == Get(g)
    {
      match f
      case Username => this.(username := v)
      case Password => this.(password := v)
      case Nickname => this.(nickname := v)
      case Email => this.(email := v)
      case Phone => this.(phone := v)
      case EmailCode => this.(emailCode := v)
    }
  }

  const EmptyForm: FormData := FormData("", "", "", "", "", "")

  // ---------------------------------------------------------------- patterns

  /** `[^\s@]`: neither white space nor an at sign. */
  predicate Clean(c: char) {
    !IsWhitespace(c) && c != '@'
  }

  ghost predicate AllClean(s: string) {
    forall k | 0 <= k < |s| :: Clean(s[k])
  }

  /** The language of `/^[^\s@]+@[^\s@]+\.[^\s@]+$/`, read off the pattern: three non-empty
      clean runs, the first two separated by `@` and the last two by a dot. */
  ghost predicate EmailShape(s: string) {
    exists i, j | 0 < i && i + 1 < j && j + 1 < |s| ::
      && s[i] == '@' && s[j] == '.'
      && AllClean(s[..i]) && AllClean(s[i + 1..j]) && AllClean(s[j + 1..])
  }

  /** The length of the longest clean prefix. */
  function CleanRun(s: string): (n: nat)
    ensures n <= |s|
    ensures forall k | 0 <= k < n :: Clean(s[k])
    ensures n < |s| ==> !Clean(s[n])
  {
    if s == [] || !Clean(s[0]) then 0 else 1 + CleanRun(s[1..])
  }

  /** The email test: a non-empty clean run ended by `@`, after which everything is clean and
      a dot stands strictly inside. */
  predicate EmailMatches(s: string)
    ensures EmailMatches(s) ==> 5 <= |s| && Clean(s[0]) && Clean(s[|s| - 1]) && '@' in s
  {
    var i := CleanRun(s);
    && 0 < i < |s| && s[i] == '@'
    && var d := s[i + 1..];
       CleanRun(d) == |d| && 3 <= |d| && '.' in d[1..|d| - 1]
  }

  /** The clean run ends at n when the first n characters are clean and the next is not. */
  lemma {:induction false} CleanRunAt(s: string, n: nat)
    requires n <= |s|
    requires forall k | 0 <= k < n :: Clean(s[k])
    requires n < |s| ==> !Clean(s[n])
    ensures CleanRun(s) == n
  {
    if n > 0 {
      assert forall k | 0 <= k < n - 1 :: s[1..][k] == s[k + 1];
      CleanRunAt(s[1..], n - 1);
    }
  }

  lemma CleanSlice(d: string, lo: nat, hi: nat)
    requires AllClean(d) && lo <= hi <= |d|
    ensures AllClean(d[lo..hi])
  {
    assert forall k | 0 <= k < hi - lo :: d[lo..hi][k] == d[lo + k];
  }

  lemma CleanConcat(a: string, b: string)
    requires AllClean(a) && AllClean(b)
    ensures AllClean(a + b)
  {
    assert forall k | 0 <= k < |a + b| :: (a + b)[k] == if k < |a| then a[k] else b[k - |a|];
  }

  /** Every string the email test accepts has the pattern's shape. */
  lemma {:induction false} EmailMatchesHasShape(s: string)
    requires EmailMatches(s)
    ensures EmailShape(s)
  {
    var i := CleanRun(s);
    var d := s[i + 1..];
    assert AllClean(d);
    var inner := d[1..|d| - 1];
    var m :| 0 <= m < |inner| && inner[m] == '.';
    var j := i + 2 + m;
    assert s[j] == d[m + 1] == '.';
    assert AllClean(s[..i]) by {
      assert forall k | 0 <= k < i :: s[..i][k] == s[k];
    }
    CleanSlice(d, 0, j - i - 1);
    assert s[i + 1..j] == d[..j - i - 1];
    CleanSlice(d, j - i, |d|);
    assert s[j + 1..] == d[j - i..];
  }

  /** A string split at i and j as the pattern demands passes the email test. */
  lemma {:induction false} SplitMatchesEmail(s: string, i: nat, j: nat)
    requires 0 < i && i + 1 < j && j + 1 < |s|
    requires s[i] == '@' && s[j] == '.'
    requires AllClean(s[..i]) && AllClean(s[i + 1..j]) && AllClean(s[j + 1..])
    ensures EmailMatches(s)
  {
    assert forall k | 0 <= k < i :: s[..i][k] == s[k];
    CleanRunAt(s, i);
    var d := s[i + 1..];
    assert AllClean(d) by {
      assert AllClean([s[j]]);
      CleanConcat(s[i + 1..j], [s[j]]);
      CleanConcat(s[i + 1..j] + [s[j]], s[j + 1..]);
      assert d == s[i + 1..j] + [s[j]] + s[j + 1..];
    }
    CleanRunAt(d, |d|);
    assert d[1..|d| - 1][j - i - 2] == '.';
  }

  /** Every string of the pattern's shape passes the email test. */
  lemma ShapeMatchesEmail(s: string)
    requires EmailShape(s)
    ensures EmailMatches(s)
  {
    var i, j :| && 0 < i && i + 1 < j && j + 1 < |s|
                && s[i] == '@' && s[j] == '.'
                && AllClean(s[..i]) && AllClean(s[i + 1..j]) && AllClean(s[j + 1..]);
    SplitMatchesEmail(s, i, j);
  }

  /** The email test accepts exactly the strings the regular expression accepts. */
  lemma EmailMatchesShape(s: string)
    ensures EmailMatches(s) <==> EmailShape(s)
  {
    if EmailMatches(s) {
      EmailMatchesHasShape(s);
    }
    if EmailShape(s) {
      ShapeMatchesEmail(s);
    }
  }

  predicate IsAsciiDigit(c: char) {
    '0' <= c <= '9'
  }

  /** `/^1[3-9]\d{9}$/` (without the u flag `\d` is the ten ASCII digits). */
  predicate PhoneMatches(s: string)
    ensures PhoneMatches(s) ==> forall k | 0 <= k < |s| :: IsAsciiDigit(s[k])
  {
    && |s| == 11 && s[0] == '1' && '3' <= s[1] <= '9'
    && forall k | 2 <= k < 11 :: IsAsciiDigit(s[k])
  }

  /** The mobile pattern on sample inputs: an eleven-digit number starting 13 passes; a second
      digit below 3, a missing digit, a country prefix and a full-width digit all fail. */
  lemma PhoneSamples()
    ensures PhoneMatches("13812345678")
    ensures !PhoneMatches("12812345678")
    ensures !PhoneMatches("1381234567")
    ensures !PhoneMatches("+8613812345678")
    ensures !PhoneMatches("1381234567\U{FF18}")
  {
    var wide := "1381234567\U{FF18}";
    assert wide[10] == '\U{FF18}' && !IsAsciiDigit(wide[10]);
  }

  /** A number the pattern accepts is eleven JavaScript characters long and not blank, so the
      validator's "phone given" test sees it. */
  lemma PhoneMatchIsElevenUnits(s: string)
    requires PhoneMatches(s)
    ensures Utf16Length(s) == 11
    ensures Trim(s) != ""
  {
    assert forall k | 0 <= k < |s| :: Utf16Units(s[k]) == 1 by {
      forall k | 0 <= k < |s| ensures Utf16Units(s[k]) == 1 {
        if k >= 2 { assert IsAsciiDigit(s[k]); }
      }
    }
  }

  // ---------------------------------------------------------------- validation

  /** The checks of `validateForm`, in the order the code makes them. */
  function Rules(d: FormData): seq<Rule> {
    [ Rule(Trim(d.username) != "", UsernameMissingMessage),
      Rule(Utf16Length(d.username) >= 3, UsernameTooShortMessage),
      Rule(d.password != "", PasswordMissingMessage),
      Rule(Utf16Length(d.password) >= 6, PasswordTooShortMessage),
      Rule(Trim(d.nickname) != "", NicknameMissingMessage),
      Rule(Trim(d.email) != "", EmailRequiredMessage),
      Rule(EmailMatches(d.email), EmailFormatMessage),
      Rule(Trim(d.phone) == "" || PhoneMatches(d.phone), PhoneFormatMessage),
      Rule(Trim(d.emailCode) != "", EmailCodeMissingMessage) ]
  }

  /** The message `validateForm` shows, None when the form passes. */
  function Validation(d: FormData): Option<string> {
    Verdict(Rules(d))
  }

  /** The verdict of the rule list, read as the chain of tests it stands for. */
  lemma ValidationUnrolled(d: FormData)
    ensures Validation(d) ==
      if Trim(d.username) == "" then Some(UsernameMissingMessage)
      else if Utf16Length(d.username) < 3 then Some(UsernameTooShortMessage)
      else if d.password == "" then Some(PasswordMissingMessage)
      else if Utf16Length(d.password) < 6 then Some(PasswordTooShortMessage)
      else if Trim(d.nickname) == "" then Some(NicknameMissingMessage)
      else if Trim(d.email) == "" then Some(EmailRequiredMessage)
      else if !EmailMatches(d.email) then Some(EmailFormatMessage)
      else if Trim(d.phone) != "" && !PhoneMatches(d.phone) then Some(PhoneFormatMessage)
      else if Trim(d.emailCode) == "" then Some(EmailCodeMissingMessage)
      else None
  {
    VerdictOfNine(Rules(d));
  }

  /** The form passes exactly when every rule holds. */
  lemma ValidationPassesIff(d: FormData)
    ensures Validation(d).None? <==>
      && Trim(d.username) != "" && Utf16Length(d.username) >= 3
      && d.password != "" && Utf16Length(d.password) >= 6
      && Trim(d.nickname) != "" && Trim(d.email) != "" && EmailMatches(d.email)
      && (Trim(d.phone) == "" || PhoneMatches(d.phone))
      && Trim(d.emailCode) != ""
  {
    ValidationUnrolled(d);
  }

  /** What a form that passes promises the registration request: a username of at least 3
      and a password of at least 6 characters, an email of the pattern's shape, a phone that
      is either blank or a mobile number, and non-empty email and code. */
  lemma {:induction false} ValidatedFormIsWellFormed(d: FormData)
    requires Validation(d).None?
    ensures Utf16Length(d.username) >= 3 && Utf16Length(d.password) >= 6
    ensures EmailShape(d.email) && d.email != "" && d.emailCode != ""
    ensures Trim(d.phone) != "" ==> PhoneMatches(d.phone) && Utf16Length(d.phone) == 11
  {
    ValidationPassesIff(d);
    EmailMatchesShape(d.email);
    if Trim(d.phone) != "" {
      PhoneMatchIsElevenUnits(d.phone);
    }
  }

  /** "abc" is rejected by the length check once the username is fine, "abcdef" is not. */
  lemma PasswordLengthBoundary(d: FormData)
    requires Trim(d.username) != "" && Utf16Length(d.username) >= 3
    ensures d.password == "abc" ==> Validation(d) == Some(PasswordTooShortMessage)
    ensures d.password == "abcdef" ==>
      Validation(d) != Some(PasswordMissingMessage) && Validation(d) != Some(PasswordTooShortMessage)
  {
    ValidationUnrolled(d);
    assert Utf16Length("abc") == 3;
    assert Utf16Length("abcdef") == 6;
  }

  // ---------------------------------------------------------------- resend cooldown

  /** The resend state: seconds left and whether a code counts as sent. */
  datatype Cooldown = Cooldown(countdown: nat, codeSent: bool)

  /** One interval tick followed by the effect it triggers: a running countdown drops by one,
      and reaching zero releases the latch; at zero no interval runs. */
  function TickOnce(c: Cooldown): (r: Cooldown)
    ensures r.countdown <= c.countdown
    ensures c.countdown > 0 ==> r.countdown + 1 == c.countdown
    ensures (c.codeSent <==> c.countdown > 0) ==> (r.codeSent <==> r.countdown > 0)
    ensures c.countdown == 0 ==> r == c
  {
    if c.countdown == 0 then c
    else var n := c.countdown - 1; Cooldown(n, if n == 0 then false else c.codeSent)
  }

  function AfterTicks(c: Cooldown, n: nat): Cooldown
    decreases n
  {
    if n == 0 then c else AfterTicks(TickOnce(c), n - 1)
  }

  /** From c seconds with the latch set, k ticks leave c - k seconds, latched until the end. */
  lemma {:induction false} CountingDown(c: nat, k: nat)
    requires 0 < c && k <= c
    ensures AfterTicks(Cooldown(c, true), k) == Cooldown(c - k, k < c)
    decreases k
  {
    if k > 0 && c > 1 {
      assert TickOnce(Cooldown(c, true)) == Cooldown(c - 1, true);
      CountingDown(c - 1, k - 1);
    }
  }

  /** Once the countdown is over, further ticks change nothing. */
  lemma {:induction false} IdleTicks(m: nat)
    ensures AfterTicks(Cooldown(0, false), m) == Cooldown(0, false)
  {
    if m > 0 {
      IdleTicks(m - 1);
    }
  }

  /** After a code is sent the latch holds for 59 ticks, the 60th releases it with the
      countdown at 0, and it stays released: sending is re-enabled exactly once. */
  lemma ResendReenabledAfterSixtyTicks()
    ensures forall k | 0 <= k < ResendSeconds ::
      AfterTicks(Cooldown(ResendSeconds, true), k) == Cooldown(ResendSeconds - k, true)
    ensures AfterTicks(Cooldown(ResendSeconds, true), ResendSeconds) == Cooldown(0, false)
    ensures forall m: nat :: AfterTicks(Cooldown(0, false), m) == Cooldown(0, false)
  {
    forall k | 0 <= k <= ResendSeconds
      ensures AfterTicks(Cooldown(ResendSeconds, true), k) == Cooldown(ResendSeconds - k, k < ResendSeconds)
    {
      CountingDown(ResendSeconds, k);
    }
    forall m: nat ensures AfterTicks(Cooldown(0, false), m) == Cooldown(0, false) {
      IdleTicks(m);
    }
  }

  /** The parameters `handleRegister` passes to register: phone only when it is not blank. */
  function RegisterDataOf(d: FormData): (p: RegisterParams)
    ensures p.username == d.username && p.password == d.password && p.nickname == d.nickname
    ensures p.email == Some(d.email) && p.emailVerificationCode == Some(d.emailCode)
    ensures Truthy(p.phone) <==> Trim(d.phone) != ""
  {
    RegisterParams(d.username, d.password, d.nickname, Some(d.email),
      if Trim(d.phone) != "" then Some(d.phone) else None, Some(d.emailCode))
  }

  /** For a form with an email and a code, the registration body carries exactly the five
      always-present fields, plus the phone when it is not blank. */
  lemma RegisterBodyOfForm(d: FormData, body: map<string, string>)
    requires d.email != "" && d.emailCode != ""
    requires IsRegisterBody(RegisterDataOf(d), body)
    ensures body.Keys ==
      {"username", "password", "nickname", "email", "email_verification_code"}
      + (if Trim(d.phone) != "" then {"phone"} else {})
  {
    var expected := {"username", "password", "nickname", "email", "email_verification_code"}
      + (if Trim(d.phone) != "" then {"phone"} else {});
    assert Trim(d.phone) != "" ==> d.phone != "";
    forall k | k in body ensures k in expected {
      assert k in {"username", "password", "nickname", "email", "email_verification_code", "phone"};
    }
  }

  // ---------------------------------------------------------------- the screen

  class RegisterForm {
    var formData: FormData
    var loading: bool
    var error: string
    var emailCodeSent: bool
    var countdown: nat
    var mounted: bool

    /** The latch is set exactly while the countdown runs, which never exceeds 60. */
    ghost predicate Valid()
      reads this
    {
      countdown <= ResendSeconds && (emailCodeSent <==> countdown > 0)
    }

    function Timer(): Cooldown
      reads this
    {
      Cooldown(countdown, emailCodeSent)
    }

    constructor ()
      ensures Valid()
      ensures formData == EmptyForm && !loading && error == ""
      ensures !emailCodeSent && countdown == 0 && mounted
    {
      formData := EmptyForm;
      loading, error := false, "";
      emailCodeSent, countdown := false, 0;
      mounted := true;
    }

    /** The send-code button's enable rule. */
    predicate CanSendEmailCode()
      reads this
      ensures Valid() && CanSendEmailCode() ==> countdown == 0
      ensures CanSendEmailCode() ==> formData.email != ""
    {
      !loading && !emailCodeSent && formData.email != ""
    }

    /** One second of the interval; nothing runs once the screen is torn down. */
    method Tick()
      requires Valid()
      modifies this`countdown, this`emailCodeSent
      ensures Valid()
      ensures Timer() == if mounted then TickOnce(old(Timer())) else old(Timer())
    {
      if mounted && countdown > 0 {
        countdown := countdown - 1;
        if countdown == 0 {
          emailCodeSent := false;
        }
      }
    }

    /** The effect's cleanup on unmount: the interval is cleared. */
    method Teardown()
      modifies this`mounted
      ensures !mounted
    {
      mounted := false;
    }

    /** `handleInputChange`: one field changes and the error is cleared. */
    method HandleInputChange(f: Field, v: string)
      modifies this`formData, this`error
      ensures formData == old(formData).With(f, v) && error == ""
      ensures formData.Get(f) == v && forall g: Field | g != f :: formData.Get(g) == old(formData).Get(g)
    {
      formData := formData.With(f, v);
      error := "";
    }

    /** `handleSendEmailCode`: an empty or malformed email sets an error and sends nothing;
        otherwise the code is requested, and success starts the 60-second cooldown. */
    method HandleSendEmailCode(reply: Exchange) returns (sent: Option<Request>)
      requires Valid()
      modifies this`loading, this`error, this`emailCodeSent, this`countdown
      ensures Valid()
      ensures formData.email == "" ==>
        sent.None? && error == EmailMissingMessage && loading == old(loading) && Timer() == old(Timer())
      ensures formData.email != "" && !EmailMatches(formData.email) ==>
        sent.None? && error == EmailFormatMessage && loading == old(loading) && Timer() == old(Timer())
      ensures EmailMatches(formData.email) ==>
        var c := SendEmailVerificationCode(formData.email, reply);
        && sent == Some(c.sent) && !loading
        && (c.response.success ==>
              Timer() == Cooldown(ResendSeconds, true) && error == "" && !CanSendEmailCode())
        && (!c.response.success ==>
              Timer() == old(Timer()) && error == Or(c.response.message, SendCodeFailedMessage))
    {
      if formData.email == "" {
        error := EmailMissingMessage;
        return None;
      }
      if !EmailMatches(formData.email) {
        error := EmailFormatMessage;
        return None;
      }
      loading := true;
      error := "";
      var c := SendEmailVerificationCode(formData.email, reply);
      sent := Some(c.sent);
      if c.response.success {
        emailCodeSent := true;
        countdown := ResendSeconds;
      } else {
        error := Or(c.response.message, SendCodeFailedMessage);
      }
      loading := false;
    }

    /** `validateForm`: the checks in order; the first that fails writes its message. */
    method ValidateForm() returns (ok: bool)
      modifies this`error
      ensures ok <==> Validation(formData).None?
      ensures !ok ==> error == Validation(formData).value
      ensures ok ==> error == old(error)
    {
      var d := formData;
      ValidationUnrolled(d);
      ok := false;
      if Trim(d.username) == "" { error := UsernameMissingMessage; return; }
      if Utf16Length(d.username) < 3 { error := UsernameTooShortMessage; return; }
      if d.password == "" { error := PasswordMissingMessage; return; }
      if Utf16Length(d.password) < 6 { error := PasswordTooShortMessage; return; }
      if Trim(d.nickname) == "" { error := NicknameMissingMessage; return; }
      if Trim(d.email) == "" { error := EmailRequiredMessage; return; }
      if !EmailMatches(d.email) { error := EmailFormatMessage; return; }
      if Trim(d.phone) != "" {
        if !PhoneMatches(d.phone) { error := PhoneFormatMessage; return; }
      }
      if Trim(d.emailCode) == "" { error := EmailCodeMissingMessage; return; }
     
      ok := true;
    }

    /** `handleRegister`: a form that fails validation shows the first failing check's message
        and sends nothing. Otherwise register is called with email and code always and phone
        only when it is not blank; the session is persisted by the auth client; success
        reports the server's username (the form's when empty or without data), failure shows
        the client's message. */
    method HandleRegister(storage: LocalStorage, reply: Exchange)
      returns (sent: Option<Request>, reported: Option<string>)
      modifies this`error, this`loading, storage
      ensures Validation(formData).Some? ==>
        && sent.None? && reported.None? && error == Validation(formData).value
        && loading == old(loading) && storage.items == old(storage.items)
      ensures Validation(formData).None? ==>
        && sent.Some? && sent.value.verb == "POST" && sent.value.path == "/auth/register"
        && IsRegisterBody(RegisterDataOf(formData), sent.value.body)
        && sent.value.body.Keys ==
             {"username", "password", "nickname", "email", "email_verification_code"}
             + (if Trim(formData.phone) != "" then {"phone"} else {})
        && storage.items == AfterSessionReply(old(storage.items), reply) && !loading
        && var r := SessionResponse(reply, RegisterFailedMessage);
           && (r.success ==> reported == ReportedUsername(r.data, formData.username)
                             && error == (if reported.Some? then "" else NetworkErrorMessage))
           && (!r.success ==> reported.None? && error == r.message)
    {
      error := "";
      var ok := ValidateForm();
      if !ok {
        return None, None;
      }
      ValidatedFormIsWellFormed(formData);
      loading := true;
      var req, r := Register(storage, RegisterDataOf(formData), reply);
      RegisterBodyOfForm(formData, req.body);
      sent := Some(req);
      if r.success {
        reported := ReportedUsername(r.data, formData.username);
        if reported.None? {
          error := NetworkErrorMessage;
        }
      } else {
        reported := None;
        // the screen's own default is the auth client's, and that message is never empty
        error := Or(r.message, RegisterFailedMessage);
      }
      loading := false;
    }
  }
}
